=== FILE: README.md ===
# SpaceRoom container: selection and slide state machine

SpaceRoom's `ContainerViewController` hosts a set of lazily created child
controllers ("pages"). It can stack them at one origin with a cross-fade
(stack mode), or lay them side by side in a paged, horizontally scrolling
carousel (slide mode). An optional header and footer overlay panel sit at the
two ends of the same scroll space. The controller runs one state machine
over these pages:

- It keeps a registry of pages it has already built (`contents`) and the
  official selection (`selectedContent`).
- It watches the scroll view's pan gesture.
- On every scroll tick it works out where the drag is heading: the previous
  page, the next page, the header or the footer.
- It reports a clamped progress factor to its delegate.
- At most once per gesture, it commits the move when the drag has ended more
  than half a page from where it began.

This project models that state machine as pure functions over immutable values:

- `SlideIndex`: the Int-backed index protocol `ContainerSlideDiretionIndex`. An
  enum is the sequence of its cases' raw values, and the module covers
  `indexPath`, `preview`, `next`, `first`, `last`, `isEqualToFirst` and
  `isEqualToLast`.
- `Layout`: the scroll coordinate space. This covers the content width
  (`adjustContentSize`), page origins, and the placement of the header and
  footer (`layoutVisualElements`, `visualSize`, `visualLeadingOffset`).
- `Gesture`: the arithmetic of one tick. This covers the clamped progress
  factor, the strict half-page commit rule, and the tendency in both modes.
- `Outputs`: the delegate callbacks and viewport moves, as one output
  alphabet. `Commits` and `Requests` filter out, respectively, the commit
  announcements and the consultations of the content factory.
- `Container`: the controller's fields and its operations. These are
  `observeValue`, `_normalSelectedContent`, `_slideSelectedContent`,
  `selectedCurrentContent`, `normalScrollViewDidScroll` and
  `slideScrollViewDidScroll`. Each operation maps a state to a new state and
  the outputs it emits, in order.
- `Controller`: one step per event, dispatched on the mode. It also covers runs
  of events and the properties a delegate relies on across many callbacks:
  - one commit per gesture;
  - the factory is consulted once per index;
  - the registry invariant holds;
  - the `slideDidChange` callbacks track the selection.
- `Progress`: `selectedProgress(factor:tendTo:)`, both as written and corrected
  (see Findings).
- `Scenario`: a worked swipe from page 0 to page 1 across three pages, event
  by event.

Inputs the controller would read from UIKit become parameters:

- the scroll offset of each tick;
- `touchTranslation().x`;
- the pan recognizer's state;
- the delegate's content factory `make: int -> Handle`, where a handle is an
  opaque page identity.

Offsets and widths are real numbers.

## Model

| member | source | states |
|---|---|---|
| SlideIndex.FromRaw | Sources/SpaceRoom/ContainerSlideDiretionIndex.swift:48-54 | `init?(rawValue:)` yields a case exactly when some case carries that raw value, and then it is that case |
| SlideIndex.Preview | Sources/SpaceRoom/ContainerSlideDiretionIndex.swift:48-50 | `preview` is the case whose raw value is one less, and is absent exactly when no case has that raw value |
| SlideIndex.Next | Sources/SpaceRoom/ContainerSlideDiretionIndex.swift:52-54 | `next` is the case whose raw value is one more, and is absent exactly when no case has that raw value |
| SlideIndex.PreviewNextRoundTrip | Sources/SpaceRoom/ContainerSlideDiretionIndex.swift:48-54 | the `next` of a `preview` is the original case, and so is the `preview` of a `next` |
| SlideIndex.FirstLastPositions | Sources/SpaceRoom/ContainerSlideDiretionIndex.swift:18-38 | with distinct raw values, `isEqualToFirst` holds exactly at position 0 of `allCases` and `isEqualToLast` exactly at the last position |
| SlideIndex.ContiguousNeighbours | Sources/SpaceRoom/ContainerSlideDiretionIndex.swift:18-54 | with raw values 0..n-1 in order, `preview` is absent exactly at the first case and `next` exactly at the last |
| SlideIndex.GapHidesPreview | Sources/SpaceRoom/ContainerSlideDiretionIndex.swift:48-50 | with raw values 0 and 2, the case 2 is not the first case, yet it has no `preview` |
| Layout.ContentWidth | Sources/SpaceRoom/ContainerViewController.swift:146-171 | the content width is one container width per page laid out (all cases in slide mode, one in stack mode) plus one per overlay attached |
| Layout.SlidePanelsTileContent | Sources/SpaceRoom/ContainerViewController.swift:461-512 | in slide mode with raw values 0..n-1, the header is at 0, page 0 starts where the header ends, each page starts one width after the previous one, the footer starts where the last page ends and the content ends where the footer ends |
| Layout.StackPanelsTileContent | Sources/SpaceRoom/ContainerViewController.swift:461-512 | in stack mode the single page origin lies right after the header, the footer right after the page, and the content ends with the footer |
| Layout.SlidePagesDisjoint | Sources/SpaceRoom/ContainerViewController.swift:311-313 | in slide mode the frames of two different pages never overlap |
| Gesture.Clamp | Sources/SpaceRoom/ContainerViewController.swift:557-561 | `clampFactor` lies in [-1, 1] and is the identity on that interval |
| Gesture.ProgressFactor | Sources/SpaceRoom/ContainerViewController.swift:637-643 | the progress factor lies in [-1, 1], has the sign of the drag, has magnitude 1 exactly when the drag reaches half a page, and below that times half a page is the drag |
| Gesture.HalfPageDoesNotCommit | Sources/SpaceRoom/ContainerViewController.swift:645 | a drag of exactly half a page, either way, does not commit (the comparison is strict) |
| Gesture.CommitReportsFullProgress | Sources/SpaceRoom/ContainerViewController.swift:637-645 | whenever a drag is far enough to commit, the factor it reports is -1 or 1 with the drag's sign |
| Gesture.SlideTendency | Sources/SpaceRoom/ContainerViewController.swift:621-635 | slide mode: a drag towards smaller offsets (delta < 0) heads for the header exactly at the first case and otherwise for `preview`; a drag towards larger offsets (delta > 0) heads for the footer exactly at the last case and otherwise for `next`; no drag heads nowhere; overlay and page never both |
| Gesture.StackTendency | Sources/SpaceRoom/ContainerViewController.swift:544-553 | stack mode: the header exactly for a drag towards smaller offsets (delta < 0), the footer exactly for one towards larger offsets (delta > 0) |
| Gesture.ContiguousDragHasOneTarget | Sources/SpaceRoom/ContainerViewController.swift:621-635 | with raw values 0..n-1, every non-zero drag has exactly one target, and a page target is a valid position |
| Container.InitialValid | Sources/SpaceRoom/ContainerViewController.swift:63-64 | the empty registry with no selection satisfies the registry invariant |
| Container.ObserveValue | Sources/SpaceRoom/ContainerViewController.swift:712-731 | "began" re-arms the gesture, clears the ended flag and the reset flags and snapshots the offset; ended, cancelled and failed are treated alike and only mark the drag as ended; registry and selection never change |
| Container.NormalSelectedContent | Sources/SpaceRoom/ContainerViewController.swift:219-280 | stack mode: selecting the selected index is a no-op; otherwise the entry is stored at the single page origin and selected, the cached content is reused, and the factory is consulted exactly when nothing was cached |
| Container.NormalSelectedContentScrolls | Sources/SpaceRoom/ContainerViewController.swift:276-278 | stack mode: selecting a new index scrolls the viewport to the page origin |
| Container.NormalSelectedContentValid | Sources/SpaceRoom/ContainerViewController.swift:273-274 | stack-mode selection keeps the registry invariant |
| Container.SlideSelectedContent | Sources/SpaceRoom/ContainerViewController.swift:282-356 | slide mode: re-selecting is a no-op; the entry for the index ends up in the registry and nothing else there changes; a preview (`isScrollOn` false) never changes the selection; cached content is reused and the factory is consulted exactly when nothing was cached; newly placed pages sit at their page origin |
| Container.SlideSelectedContentScrolls | Sources/SpaceRoom/ContainerViewController.swift:289-319 | a scroll-driven selection of a new index scrolls to that page's stored origin |
| Container.SlidePreviewDoesNotScroll | Sources/SpaceRoom/ContainerViewController.swift:317-319 | a preview never moves the viewport |
| Container.SlideSelectedContentValid | Sources/SpaceRoom/ContainerViewController.swift:348-354 | slide-mode selection, scroll-driven or preview, keeps the registry invariant |
| Container.SelectedCurrentContent | Sources/SpaceRoom/ContainerViewController.swift:373-380 | bringing the selection back into view announces nothing and consults no factory |
| Container.SelectedCurrentContentScrolls | Sources/SpaceRoom/ContainerViewController.swift:373-380 | with a selection the viewport is scrolled to the selected page's stored frame; without one nothing happens; nothing but viewport moves is emitted |
| Container.OverlayTick | Sources/SpaceRoom/ContainerViewController.swift:647-672 | the overlay branch never touches registry or selection; it commits exactly when the drag has ended past half a page, and a commit announces `visualDidChange(kind)` once, disarms the gesture and marks the kind for a reset; without a commit the state is unchanged |
| Container.OverlayTickReports | Sources/SpaceRoom/ContainerViewController.swift:647-672 | while the finger is down the only output is the progress towards the overlay, with factor exactly `clampFactor(delta / halfPage)` (so in [-1, 1] with the drag's sign); once the drag has ended no progress is reported, every tick starts with a "not changed" reset notice, and a tick that does not commit sends that notice alone; a commit scrolls back to the selected page and ends with the "changed" reset notice |
| Container.NormalScrollViewDidScroll | Sources/SpaceRoom/ContainerViewController.swift:529-599 | stack mode: an unarmed tick does nothing; an armed tick runs the overlay branch for the header on a drag towards smaller offsets (delta < 0) and for the footer on one towards larger offsets (delta > 0), and does nothing for a zero drag; registry and selection never change; a tick commits to the overlay on the drag's side exactly when the drag has ended past half a page, and a commit disarms the gesture |
| Container.NeighbourCommit | Sources/SpaceRoom/ContainerViewController.swift:693-702 | a neighbour commit selects the registry's entry for the target, disarms the gesture and announces the change from the old index to the target, once |
| Container.NeighbourTick | Sources/SpaceRoom/ContainerViewController.swift:674-704 | the neighbour-page branch registers the target at its page origin without disturbing other entries, consults the factory only when the target was not cached, and commits (selecting the target, disarming, announcing the move once) exactly when the drag has ended past half a page; otherwise selection and drag are unchanged |
| Container.NeighbourTickReports | Sources/SpaceRoom/ContainerViewController.swift:674-704 | the branch first reports progress towards the target with factor exactly `clampFactor(delta / halfPage)`, so within [-1, 1] and saturated on a commit; cached content is reused; a commit scrolls to the target's origin and ends with `slideDidChange` |
| Container.SlideScrollViewDidScroll | Sources/SpaceRoom/ContainerViewController.swift:601-706 | an unarmed tick does nothing; an armed tick heading for an overlay runs the overlay branch for that overlay, one heading for a page runs the neighbour-page branch for that page, and one with no target does nothing |
| Container.SlideTickNeighbourTarget | Sources/SpaceRoom/ContainerViewController.swift:621-635 | the page an armed tick heads for is never the selected one |
| Container.SlideTickCommits | Sources/SpaceRoom/ContainerViewController.swift:601-706 | a slide-mode tick announces one commit exactly when it is armed, ended, past half a page and has a target, and none otherwise; the commit is `visualDidChange` of the overlay target or `slideDidChange` from the selected index to the page target; a commit disarms, and a tick without one leaves the drag fields alone |
| Container.SlideTickSelection | Sources/SpaceRoom/ContainerViewController.swift:601-706 | a slide-mode tick never clears the selection and changes it only by a neighbour commit, to the registry entry of an adjacent case at its page origin, announced by exactly that change |
| Container.SlideTickRegistry | Sources/SpaceRoom/ContainerViewController.swift:674-686 | a slide-mode tick consults the factory at most once, only for an unregistered index, and the registry grows by exactly what it asked for |
| Container.NeighbourTickRegistry | Sources/SpaceRoom/ContainerViewController.swift:685 | rendering the target grows the registry by the target exactly when it was not registered |
| Container.NeighbourTickValid | Sources/SpaceRoom/ContainerViewController.swift:674-704 | the neighbour-page branch keeps the registry invariant |
| Container.SlideTickValid | Sources/SpaceRoom/ContainerViewController.swift:601-706 | a slide-mode tick keeps the registry invariant |
| Controller.Step | Sources/SpaceRoom/ContainerViewController.swift:519-527 | corrected (see Findings): a pan event, in either mode, is `observeValue` and emits nothing; a selection keeps the drag fields; a scroll tick is `slideScrollViewDidScroll` in slide mode and `normalScrollViewDidScroll` in stack mode |
| Controller.StepAsWritten | Sources/SpaceRoom/ContainerViewController.swift:399-405 | as written, pan events are lost in stack mode, so one event leaves a disarmed stack-mode controller disarmed and announces no commit |
| Controller.StackModeNeverCommitsAsWritten | Sources/SpaceRoom/ContainerViewController.swift:529-536 | as written: in stack mode, starting disarmed, no run of events ever arms the gesture or commits to an overlay |
| Controller.StackGestureCommits | Sources/SpaceRoom/ContainerViewController.swift:529-599 | corrected: in stack mode with a selection, a pan that begins, ends past half a page and is followed by a scroll tick commits once, to the header for a drag towards smaller offsets (delta < 0) and to the footer for one towards larger offsets (delta > 0) |
| Controller.SlideGestureCommits | Sources/SpaceRoom/ContainerViewController.swift:601-731 | in slide mode, a pan that begins, ends past half a page towards a target and is followed by a scroll tick commits once: `visualDidChange` of an overlay target, or `slideDidChange` from the selected index to a page target |
| Controller.StepCommits | Sources/SpaceRoom/ContainerViewController.swift:529-706 | one event announces at most one commit, only from an armed gesture, and disarms it; only a "began" event re-arms |
| Controller.StepRegistry | Sources/SpaceRoom/ContainerViewController.swift:225-303 | one event consults the factory at most once, only for an unregistered index, and registers exactly what it asked for |
| Controller.StepValid | Sources/SpaceRoom/ContainerViewController.swift:519-527 | every event keeps the registry invariant |
| Controller.SelectSelects | Sources/SpaceRoom/ContainerViewController.swift:211-217 | selecting an index makes it the selected index, in both modes |
| Controller.StepSelection | Sources/SpaceRoom/ContainerViewController.swift:695-702 | no event other than a selection clears the selection or changes it other than as its `slideDidChange` callback announces |
| Controller.SlideTickAnnounces | Sources/SpaceRoom/ContainerViewController.swift:693-702 | after a slide-mode tick, the selected index is what a delegate following `slideDidChange` believes |
| Controller.RunValid | Sources/SpaceRoom/ContainerViewController.swift:519-731 | any run of events keeps the registry invariant |
| Controller.RunRegistry | Sources/SpaceRoom/ContainerViewController.swift:225-303 | over any run the factory is consulted at most once per index and never for a registered one, and the registry gains exactly those indices |
| Controller.RunCommitsAtMostOnce | Sources/SpaceRoom/ContainerViewController.swift:603-608 | a run without a "began" event announces at most one commit, none when it starts disarmed, and never re-arms |
| Controller.OneCommitPerGesture | Sources/SpaceRoom/ContainerViewController.swift:716-724 | a whole gesture, from "began" to just before the next one, announces at most one commit |
| Controller.RunAnnouncesSelection | Sources/SpaceRoom/ContainerViewController.swift:693-702 | over any run without explicit selections, a delegate that follows `slideDidChange` always knows the selected index |
| Progress.Shift | Sources/SpaceRoom/ContainerViewController.swift:754-769 | the shift is minus a page width times the factor towards the case whose raw value is one less, plus towards the case one more, and zero for any index that is not an adjacent case |
| Progress.SelectedProgressAsWritten | Sources/SpaceRoom/ContainerViewController.swift:746-774 | as written: no result outside slide mode or without a selection, otherwise an offset at most a page width times the factor away from 0 |
| Progress.AsWrittenMissesTarget | Sources/SpaceRoom/ContainerViewController.swift:771-772 | a full step back from page 2 of three 300-point pages sets the offset to -300 while page 1 lies at 300 |
| Progress.SelectedProgress | Sources/SpaceRoom/ContainerViewController.swift:746-774 | corrected: the same shift, measured from the selected page's origin |
| Progress.SelectedProgressBetweenPages | Sources/SpaceRoom/ContainerViewController.swift:756-772 | corrected: for a neighbour and a factor in [0, 1] the offset lies between the two pages' origins, at the selected one for 0 and at the neighbour for 1 |
| Scenario.DragRendersPage1 | Sources/SpaceRoom/ContainerViewController.swift:674-689 | a drag that scrolls 200 of 300 points from page 0 towards page 1 reports full progress to page 1, builds page 1 once and configures it, without selecting it |
| Scenario.LiftFinger | Sources/SpaceRoom/ContainerViewController.swift:726-729 | lifting the finger only marks the drag as ended |
| Scenario.BeganArms | Sources/SpaceRoom/ContainerViewController.swift:716-723 | the "began" event at offset 0 arms the gesture from rest, snapshots offset 0 and reports nothing |
| Scenario.CommitToPage1 | Sources/SpaceRoom/ContainerViewController.swift:674-704 | the next tick after the lift reuses the cached page 1, selects it, scrolls to it and announces the move from 0 to 1 |
| Scenario.TickAfterCommit | Sources/SpaceRoom/ContainerViewController.swift:603-608 | once committed, further ticks of the same gesture do nothing |
| Scenario.SwipeToNextPage | Sources/SpaceRoom/ContainerViewController.swift:601-731 | the whole swipe, from the "began" event with page 0 selected and the gesture disarmed, consults the factory once (for page 1), announces one move from page 0 to page 1, and ends with page 1 selected at its origin |

## Left out

- The one-time setup is left out: `viewWillAppear`'s root selection,
  `prepareSlideModeContent` and `prepareVisualContent`. Their outcome is
  fixed in `Config` instead: whether slide mode is on, the cases, the width,
  and which overlays are attached.
- The KVO observer on the pan gesture is registered only in slide mode.
  `Controller.Step` delivers pan events in both modes, which is what the
  stack-mode tick handler evidently expects; `Controller.StepAsWritten`
  models the registration as written (see Findings).
- Page frames are stored by value: each registry entry keeps the page
  origin `x` it was placed at, while the source reads `content.view.frame`
  from the live view each time. The content factory is assumed to build a
  separate controller for each index, so two entries never share one view.
- `selectedContent(at:)` is modelled only through `_selectedContent`
  (the `Select` event). The setup calls it makes are not modelled.
- UIKit plumbing is abstracted: `addChild`, `addSubview`,
  `willMove`/`didMove`, `setNeeds*`, view alpha and frame heights. Only the
  viewport moves (`ScrollTo`) and the delegate callbacks are outputs.
- Animations and deferred work are not modelled in time. The configuration
  callback that runs from an animation completion or from
  `DispatchQueue.main.asyncAfter` is emitted in order, with a `deferred`
  flag instead.
- `touchTranslation()` reads live gesture locations. It is an input number.
- `setContentOffset` in `selectedProgress` is the returned offset. The scroll
  tick it would in turn cause is a separate event.
- `resetVisualVisibleRect` and `shouldResetVisualVisibleRect` are left out:
  nothing in the controller calls them. The `shouldVisualResetRect` flags
  they read are modelled.
- Index types that are not Int-backed enums are not modelled. In slide mode
  the source requires `ContainerSlideDiretionIndex`, and the index
  arithmetic here is its Int raw-value form.
- Floating point is modelled as exact reals. For a zero-width container the
  source divides by zero; the model follows the IEEE result (the clamp
  turns an infinite factor into -1 or 1), except that a zero drag, which
  would give NaN, has no target and reports nothing.
- The segmented selector widget, `ContentVisualViewController`,
  `ContentScrollView` (compiled out) and the example app are not part of
  this model.
- Three behaviours of the code that the model follows as written:
  - once a drag toward an overlay has ended, a "not changed" reset notice is
    sent on every tick, not once;
  - an overlay commit happens whether or not that overlay is attached;
  - a drag that ends short of half a page has no explicit snap-back of the
    preview page.
- Progress.SelectedProgressAsWritten: only bounds the offset it sets, because
  that offset has no meaningful relation to the pages (see Findings).
- Progress.SelectedProgressBetweenPages: is stated for a factor in [0, 1],
  the magnitude of a step. The progress callbacks report a signed factor
  (negative towards `preview`); a caller passing that signed value on would
  move the viewport away from the target, and the model says nothing about
  that use.

## Findings

| source | as written | input that shows it | evidently intended | confidence | as-written member | corrected member |
|---|---|---|---|---|---|---|
| Sources/SpaceRoom/ContainerViewController.swift:754-772 | `selectedProgress` passes the shift (page width times factor) to `setContentOffset` as the absolute offset, so the selected page's position is ignored | three 300-point pages, no header, page 2 selected at 600, `selectedProgress(factor: 1, tendTo: page 1)` sets the offset to -300 while page 1 is at 300 | move the viewport from the selected page's origin by the shift, so a full step lands on the neighbour's origin | not executed | Progress.AsWrittenMissesTarget | Progress.SelectedProgressBetweenPages |
| Sources/SpaceRoom/ContainerViewController.swift:399-405 | the pan-state observer is added only when slide mode is on, so in stack mode `canChange` is never set and `normalScrollViewDidScroll` always returns at its guard (529-536) | stack mode, header and footer attached, 300-point width, a page selected at 300; the pan begins at offset 300, ends at 100, and the scroll view ticks at 100: nothing is announced | stack mode with overlays enables scrolling and paging (452-457) and its tick handler commits to an overlay after a drag past half a page, so the observer should be active whenever that handler can run | medium, not executed | Controller.StackModeNeverCommitsAsWritten | Controller.StackGestureCommits |

=== FILE: container.dfy ===
/**
 * `ContainerViewController`'s selection and drag state machine, with UIKit
 * replaced by values: the content registry is a map, the scroll view's
 * position is an input of each event, and every delegate callback or
 * viewport move the controller would perform is an `Output`.
 */
module Container {
  import opened Wrappers
  import opened SlideIndex
  import opened Layout
  import opened Gesture
  import opened Outputs

  /** A page's content controller, as an opaque identity produced by the delegate's factory. */
  type Handle = nat

  /**
   * `IndexContent`: an index with its content and the x origin of the
   * content's frame (the frame is always one container width wide, at y 0).
   */
  datatype IndexContent = IndexContent(index: int, content: Handle, x: real)

  /** The states of the scroll view's pan gesture recognizer. */
  datatype PanState = Possible | Began | Changed | Ended | Cancelled | Failed
  {
    /** The three states that finish a gesture. */
    predicate IsTerminal() {
      this == Ended || this == Cancelled || this == Failed
    }
  }

  /**
   * Per-gesture fields: `beganScrollOffset`, `canChange`, `isDragEnded`, and
   * the kinds whose `shouldVisualResetRect` entry is true.
   */
  datatype Drag = Drag(beganScrollOffset: real, canChange: bool, isDragEnded: bool, shouldVisualResetRect: set<Kind>)

  /** The controller's fields: the registry `contents`, `selectedContent`, and the drag fields. */
  datatype State = State(contents: map<int, IndexContent>, selectedContent: Option<IndexContent>, drag: Drag)

  /** The new state and the outputs of one step. */
  datatype Transition = Transition(state: State, outputs: seq<Output>)

  /** A freshly created controller: nothing registered or selected, no gesture armed. */
  function Initial(): State {
    State(map[], None, Drag(0.0, false, false, {}))
  }

  /**
   * The invariant the controller keeps: each registry entry is stored under
   * its own index at the place the current mode lays that index out, and the
   * selection, when present, is the registry's entry for its index.
   */
  predicate Valid(cfg: Config, st: State) {
    && (forall i :: i in st.contents ==> st.contents[i].index == i && st.contents[i].x == PageX(cfg, i))
    && (st.selectedContent.Some? ==>
          && st.selectedContent.value.index in st.contents
          && st.contents[st.selectedContent.value.index] == st.selectedContent.value)
  }

  lemma InitialValid(cfg: Config)
    ensures Valid(cfg, Initial())
  {
  }

  /** `selectedContent != nil && selectedContent?.index == index`. */
  predicate IsSelected(st: State, index: int) {
    st.selectedContent.Some? && st.selectedContent.value.index == index
  }

  /**
   * `observeValue`: the pan recognizer changed state. "Began" re-arms the
   * gesture and snapshots the scroll offset; "ended", "cancelled" and "failed"
   * all just mark the drag as ended; other states change nothing.
   */
  function ObserveValue(st: State, pan: PanState, offset: real): (r: State)
    ensures r.contents == st.contents && r.selectedContent == st.selectedContent
    ensures pan == Began ==> r.drag == Drag(offset, true, false, {})
    ensures pan.IsTerminal() ==> r == st.(drag := st.drag.(isDragEnded := true))
    ensures pan != Began && !pan.IsTerminal() ==> r == st
  {
    var armed := if pan == Began then Drag(offset, true, false, {}) else st.drag;
    var ended := if pan == Ended || pan == Cancelled || pan == Failed then armed.(isDragEnded := true) else armed;
    st.(drag := ended)
  }

  /** `[ContentRequested(index)]` when nothing is cached for `index`, otherwise nothing. */
  function RequestIfMissing(st: State, index: int): (outs: seq<Output>)
    ensures Requests(outs) == if index in st.contents then [] else [index]
    ensures Commits(outs) == []
  {
    if index in st.contents then [] else FiltersSingle(ContentRequested(index)); [ContentRequested(index)]
  }

  /** `contents[index]?.content ?? container(self, contentAtIndex: index)`. */
  function CachedOrMake(st: State, index: int, make: int -> Handle): Handle {
    if index in st.contents then st.contents[index].content else make(index)
  }

  /**
   * `_normalSelectedContent`: stack mode. Unless the index is already
   * selected, the cached content (or, only when none is cached, a new one from
   * the factory) is placed at the single page origin, becomes the selection
   * and the registry entry, and the viewport scrolls to it. The configuration
   * callback runs when the cross-fade finishes.
   */
  function NormalSelectedContent(cfg: Config, st: State, index: int, make: int -> Handle): (t: Transition)
    requires !cfg.SlideModeOn()
    ensures IsSelected(st, index) ==> t == Transition(st, [])
    ensures !IsSelected(st, index) ==>
              && index in t.state.contents
              && t.state.contents == st.contents[index := t.state.contents[index]]
              && t.state.contents[index] == IndexContent(index, t.state.contents[index].content, VisualLeadingOffset(cfg))
              && t.state.selectedContent == Some(t.state.contents[index])
    ensures index in st.contents ==> t.state.contents[index].content == st.contents[index].content
    ensures !IsSelected(st, index) && index !in st.contents ==> t.state.contents[index].content == make(index)
    ensures Requests(t.outputs) == if !IsSelected(st, index) && index !in st.contents then [index] else []
    ensures Commits(t.outputs) == []
    ensures t.state.drag == st.drag
  {
    if IsSelected(st, index) then
      Transition(st, [])
    else
      var entry := IndexContent(index, CachedOrMake(st, index, make), StackPageX(cfg));
      var requested := RequestIfMissing(st, index);
      FiltersSingle(ScrollTo(entry.x));
      FiltersSingle(Configure(index, true));
      ThenQuiet(requested, [ScrollTo(entry.x)]);
      ThenQuiet(requested + [ScrollTo(entry.x)], [Configure(index, true)]);
      Transition(
        st.(contents := st.contents[index := entry], selectedContent := Some(entry)),
        requested + [ScrollTo(entry.x)] + [Configure(index, true)])
  }

  /**
   * Storing an entry at its own index and at its mode's place keeps the
   * invariant, whether the entry becomes the selection or the selection (of
   * some other index) stays.
   */
  lemma ValidAfterPlacing(cfg: Config, st: State, e: IndexContent, sel: Option<IndexContent>, drag: Drag)
    requires Valid(cfg, st) && e.x == PageX(cfg, e.index)
    requires sel == Some(e) || (sel == st.selectedContent && (sel.Some? ==> sel.value.index != e.index))
    ensures Valid(cfg, State(st.contents[e.index := e], sel, drag))
  {
    var m := st.contents[e.index := e];
    forall i | i in m
      ensures m[i].index == i && m[i].x == PageX(cfg, i)
    {
      if i != e.index {
        assert m[i] == st.contents[i];
      }
    }
  }

  /** Stack-mode selection of a page that is not selected scrolls to the single page origin. */
  lemma NormalSelectedContentScrolls(cfg: Config, st: State, index: int, make: int -> Handle)
    requires !cfg.SlideModeOn() && !IsSelected(st, index)
    ensures ScrollTo(VisualLeadingOffset(cfg)) in NormalSelectedContent(cfg, st, index, make).outputs
  {
    var requested := RequestIfMissing(st, index);
    var outs := requested + [ScrollTo(StackPageX(cfg))] + [Configure(index, true)];
    assert NormalSelectedContent(cfg, st, index, make).outputs == outs;
    assert outs[|requested|] == ScrollTo(VisualLeadingOffset(cfg));
  }

  /** Stack-mode selection keeps the registry invariant. */
  lemma NormalSelectedContentValid(cfg: Config, st: State, index: int, make: int -> Handle)
    requires !cfg.SlideModeOn() && Valid(cfg, st)
    ensures Valid(cfg, NormalSelectedContent(cfg, st, index, make).state)
  {
    if !IsSelected(st, index) {
      var entry := IndexContent(index, CachedOrMake(st, index, make), StackPageX(cfg));
      ValidAfterPlacing(cfg, st, entry, Some(entry), st.drag);
    }
  }

  /**
   * `_slideSelectedContent`: slide mode. Unless the index is already
   * selected: a scroll-driven call (`isScrollOn`) for a cached index just
   * scrolls to it and selects it; otherwise the cached content (or, only when
   * none is cached, a new one) is placed at the index's page origin and
   * stored in the registry. Only a scroll-driven call moves the viewport and
   * the official selection; a preview call configures the content at once.
   * The source's `as? ContainerSlideDiretionIndex` check always succeeds in
   * slide mode.
   */
  function SlideSelectedContent(cfg: Config, st: State, index: int, isScrollOn: bool, make: int -> Handle): (t: Transition)
    requires cfg.SlideModeOn()
    ensures IsSelected(st, index) ==> t == Transition(st, [])
    ensures !isScrollOn ==> t.state.selectedContent == st.selectedContent
    ensures !IsSelected(st, index) ==>
              && index in t.state.contents
              && t.state.contents == st.contents[index := t.state.contents[index]]
    ensures !IsSelected(st, index) && isScrollOn ==> t.state.selectedContent == Some(t.state.contents[index])
    ensures !IsSelected(st, index) && !(isScrollOn && index in st.contents) ==>
              t.state.contents[index] == IndexContent(index, t.state.contents[index].content, SlidePageX(cfg, index))
    ensures index in st.contents ==> t.state.contents[index].content == st.contents[index].content
    ensures !IsSelected(st, index) && index !in st.contents ==> t.state.contents[index].content == make(index)
    ensures Requests(t.outputs) == if !IsSelected(st, index) && index !in st.contents then [index] else []
    ensures Commits(t.outputs) == []
    ensures t.state.drag == st.drag
  {
    if IsSelected(st, index) then
      Transition(st, [])
    else if index in st.contents && isScrollOn then
      var current := st.contents[index];
      FiltersSingle(ScrollTo(current.x));
      assert st.contents[index := current] == st.contents;
      Transition(st.(selectedContent := Some(current)), [ScrollTo(current.x)])
    else
      var entry := IndexContent(index, CachedOrMake(st, index, make), SlidePageX(cfg, index));
      var requested := RequestIfMissing(st, index);
      var scroll := if isScrollOn then [ScrollTo(entry.x)] else [];
      var deferred := st.selectedContent.None? || isScrollOn;
      FiltersSingle(ScrollTo(entry.x));
      FiltersSingle(Configure(index, deferred));
      ThenQuiet(requested, scroll);
      ThenQuiet(requested + scroll, [Configure(index, deferred)]);
      Transition(
        st.(contents := st.contents[index := entry],
            selectedContent := if isScrollOn then Some(entry) else st.selectedContent),
        requested + scroll + [Configure(index, deferred)])
  }

  /** A scroll-driven selection of a page that is not selected scrolls to where that page is. */
  lemma SlideSelectedContentScrolls(cfg: Config, st: State, index: int, make: int -> Handle)
    requires cfg.SlideModeOn() && !IsSelected(st, index)
    ensures var t := SlideSelectedContent(cfg, st, index, true, make);
            ScrollTo(t.state.contents[index].x) in t.outputs
  {
    var t := SlideSelectedContent(cfg, st, index, true, make);
    if index in st.contents {
      assert t.outputs == [ScrollTo(st.contents[index].x)];
    } else {
      var entry := IndexContent(index, CachedOrMake(st, index, make), SlidePageX(cfg, index));
      var requested := RequestIfMissing(st, index);
      assert t.outputs == requested + [ScrollTo(entry.x)] + [Configure(index, true)];
      assert t.outputs[|requested|] == ScrollTo(entry.x);
    }
  }

  /** A preview (not scroll-driven) never moves the viewport. */
  lemma SlidePreviewDoesNotScroll(cfg: Config, st: State, index: int, make: int -> Handle)
    requires cfg.SlideModeOn()
    ensures forall o :: o in SlideSelectedContent(cfg, st, index, false, make).outputs ==> !o.ScrollTo?
  {
    if !IsSelected(st, index) {
      var requested := RequestIfMissing(st, index);
      assert SlideSelectedContent(cfg, st, index, false, make).outputs ==
               requested + [] + [Configure(index, st.selectedContent.None?)];
    }
  }

  /** Slide-mode selection, scroll-driven or preview, keeps the registry invariant. */
  lemma SlideSelectedContentValid(cfg: Config, st: State, index: int, isScrollOn: bool, make: int -> Handle)
    requires cfg.SlideModeOn() && Valid(cfg, st)
    ensures Valid(cfg, SlideSelectedContent(cfg, st, index, isScrollOn, make).state)
  {
    if !IsSelected(st, index) && !(index in st.contents && isScrollOn) {
      var entry := IndexContent(index, CachedOrMake(st, index, make), SlidePageX(cfg, index));
      ValidAfterPlacing(cfg, st, entry, if isScrollOn then Some(entry) else st.selectedContent, st.drag);
    }
  }

  /** `selectedCurrentContent` (also `resetVisibleRect`): bring the selected page back into view, if there is one. */
  function SelectedCurrentContent(st: State): (outs: seq<Output>)
    ensures Commits(outs) == [] && Requests(outs) == []
  {
    if st.selectedContent.Some? then
      FiltersSingle(ScrollTo(st.selectedContent.value.x));
      [ScrollTo(st.selectedContent.value.x)]
    else
      []
  }

  /**
   * Bringing the selection back into view is one scroll to the selected
   * page's frame and nothing else; without a selection it does nothing.
   */
  lemma SelectedCurrentContentScrolls(st: State)
    ensures st.selectedContent.Some? ==> ScrollTo(st.selectedContent.value.x) in SelectedCurrentContent(st)
    ensures st.selectedContent.None? ==> SelectedCurrentContent(st) == []
    ensures forall o :: o in SelectedCurrentContent(st) ==> o.ScrollTo?
  {
    if st.selectedContent.Some? {
      assert SelectedCurrentContent(st) == [ScrollTo(st.selectedContent.value.x)];
    }
  }

  /**
   * The overlay branch shared by both tick handlers, for a drag heading to
   * overlay `kind`: progress while the finger is down; once the drag has
   * ended, a "not changed" reset notice on every tick, and, if the drag went
   * past half a page, the single overlay commit: disarm, mark the kind for a
   * reset, announce the change, scroll back to the selected page and send
   * the "changed" reset notice. The selection is never touched.
   */
  function OverlayTick(cfg: Config, st: State, kind: Kind, delta: real, translation: real): (t: Transition)
    ensures t.state.contents == st.contents && t.state.selectedContent == st.selectedContent
    ensures Commits(t.outputs) ==
              if st.drag.isDragEnded && ShouldChange(delta, cfg.width) then [VisualDidChange(kind)] else []
    ensures Requests(t.outputs) == []
    ensures st.drag.isDragEnded && ShouldChange(delta, cfg.width) ==>
              t.state.drag == st.drag.(canChange := false, shouldVisualResetRect := st.drag.shouldVisualResetRect + {kind})
    ensures !(st.drag.isDragEnded && ShouldChange(delta, cfg.width)) ==> t.state == st
  {
    if !st.drag.isDragEnded then
      var progress := VisualProgress(ProgressFactor(delta, cfg.width), kind, translation);
      FiltersSingle(progress);
      Transition(st, [progress])
    else
      FiltersSingle(VisualResetChange(false, kind));
      if ShouldChange(delta, cfg.width) then
        var reset := SelectedCurrentContent(st);
        OverlayCommitFilters(kind, reset);
        Transition(
          st.(drag := st.drag.(canChange := false, shouldVisualResetRect := st.drag.shouldVisualResetRect + {kind})),
          [VisualResetChange(false, kind), VisualDidChange(kind)] + reset + [VisualResetChange(true, kind)])
      else
        Transition(st, [VisualResetChange(false, kind)])
  }

  /**
   * What the overlay branch reports: while the finger is down, only the
   * progress towards `kind`, the clamped `delta / halfPage` (so within
   * [-1, 1] and of the drag's sign), and never any progress after the lift;
   * a lifted tick that does not commit sends the "not changed" notice alone;
   * once it
   * has ended, a "not changed" reset notice first, and on a commit a scroll
   * back to the selected page and the "changed" reset notice last.
   */
  lemma OverlayTickReports(cfg: Config, st: State, kind: Kind, delta: real, translation: real)
    ensures var t := OverlayTick(cfg, st, kind, delta, translation);
            && (!st.drag.isDragEnded ==>
                  && t.outputs == [VisualProgress(ProgressFactor(delta, cfg.width), kind, translation)]
                  && -1.0 <= t.outputs[0].factor <= 1.0
                  && (t.outputs[0].factor < 0.0 <==> delta < 0.0))
            && (st.drag.isDragEnded ==> |t.outputs| > 0 && t.outputs[0] == VisualResetChange(false, kind))
            && (st.drag.isDragEnded ==> forall o :: o in t.outputs ==> !o.VisualProgress?)
            && (st.drag.isDragEnded && !ShouldChange(delta, cfg.width) ==> t.outputs == [VisualResetChange(false, kind)])
            && (st.drag.isDragEnded && ShouldChange(delta, cfg.width) ==>
                  && t.outputs[|t.outputs| - 1] == VisualResetChange(true, kind)
                  && (st.selectedContent.Some? ==> ScrollTo(st.selectedContent.value.x) in t.outputs))
  {
    var t := OverlayTick(cfg, st, kind, delta, translation);
    if st.drag.isDragEnded && ShouldChange(delta, cfg.width) {
      var reset := SelectedCurrentContent(st);
      var head := [VisualResetChange(false, kind), VisualDidChange(kind)];
      assert t.outputs == head + reset + [VisualResetChange(true, kind)];
      if st.selectedContent.Some? {
        assert t.outputs[2] == ScrollTo(st.selectedContent.value.x);
      }
    }
  }

  /** The callbacks of an overlay commit announce that one commit and consult no factory. */
  lemma OverlayCommitFilters(kind: Kind, reset: seq<Output>)
    requires Commits(reset) == [] && Requests(reset) == []
    ensures Commits([VisualResetChange(false, kind), VisualDidChange(kind)] + reset + [VisualResetChange(true, kind)]) == [VisualDidChange(kind)]
    ensures Requests([VisualResetChange(false, kind), VisualDidChange(kind)] + reset + [VisualResetChange(true, kind)]) == []
  {
    var head := [VisualResetChange(false, kind), VisualDidChange(kind)];
    assert head == [VisualResetChange(false, kind)] + [VisualDidChange(kind)];
    FiltersSingle(VisualResetChange(false, kind));
    FiltersSingle(VisualDidChange(kind));
    FiltersSingle(VisualResetChange(true, kind));
    QuietThen([VisualResetChange(false, kind)], [VisualDidChange(kind)]);
    ThenQuiet(head, reset);
    ThenQuiet(head + reset, [VisualResetChange(true, kind)]);
  }

  /** The guard both tick handlers start with: a gesture is armed and something is selected. */
  predicate Armed(st: State) {
    st.drag.canChange && st.selectedContent.Some?
  }

  /**
   * `normalScrollViewDidScroll`: stack mode. A drag can only head for an
   * overlay (the header for a drag towards smaller offsets, the footer for
   * one towards larger offsets) and commits at most once, exactly when the
   * drag has ended more than half a page away from where it began. The registry and the selection never change. An
   * armed tick with a drag runs the overlay branch for the drag's side.
   */
  function NormalScrollViewDidScroll(cfg: Config, st: State, offset: real, translation: real): (t: Transition)
    ensures !Armed(st) ==> t == Transition(st, [])
    ensures t.state.contents == st.contents && t.state.selectedContent == st.selectedContent
    ensures Requests(t.outputs) == []
    ensures Commits(t.outputs) ==
              if Armed(st) && st.drag.isDragEnded && ShouldChange(offset - st.drag.beganScrollOffset, cfg.width)
              then [VisualDidChange(if offset < st.drag.beganScrollOffset then Header else Footer)]
              else []
    ensures Commits(t.outputs) != [] ==> !t.state.drag.canChange
    ensures Commits(t.outputs) == [] ==> t.state == st
    ensures Armed(st) ==>
              var delta := offset - st.drag.beganScrollOffset;
              && (StackTendency(delta).Some? ==> t == OverlayTick(cfg, st, StackTendency(delta).value, delta, translation))
              && (StackTendency(delta).None? ==> t == Transition(st, []))
  {
    if !Armed(st) then
      Transition(st, [])
    else
      var delta := offset - st.drag.beganScrollOffset;
      match StackTendency(delta)
      case None => Transition(st, [])
      case Some(kind) => OverlayTick(cfg, st, kind, delta, translation)
  }

  /**
   * The commit at the end of the neighbour-page branch: disarm, select the
   * registry's entry for `target` (`contents[tendToSelectedIndex]`), scroll
   * to it, and announce the change from `current` to `target`.
   */
  function NeighbourCommit(st: State, current: int, target: int): (t: Transition)
    requires target in st.contents
    ensures t.state == st.(selectedContent := Some(st.contents[target]), drag := st.drag.(canChange := false))
    ensures Commits(t.outputs) == [SlideDidChange(current, target)] && Requests(t.outputs) == []
  {
    var next := st.(selectedContent := Lookup(st.contents, target), drag := st.drag.(canChange := false));
    var scroll := SelectedCurrentContent(next);
    FiltersSingle(SlideDidChange(current, target));
    QuietThen(scroll, [SlideDidChange(current, target)]);
    Transition(next, scroll + [SlideDidChange(current, target)])
  }

  /**
   * The neighbour-page branch of `slideScrollViewDidScroll`, for a drag from
   * the selected page towards the different page `target`: report progress,
   * render `target` at its page origin without selecting it, and, once the
   * drag has ended more than half a page away, commit exactly once: disarm,
   * select the registry's entry for `target`, scroll to it and announce the
   * change from the old index to `target`.
   */
  function NeighbourTick(cfg: Config, st: State, target: int, delta: real, translation: real, make: int -> Handle): (t: Transition)
    requires cfg.SlideModeOn() && st.selectedContent.Some? && target != st.selectedContent.value.index
    ensures target in t.state.contents
    ensures t.state.contents[target] == IndexContent(target, t.state.contents[target].content, SlidePageX(cfg, target))
    ensures t.state.contents == st.contents[target := t.state.contents[target]]
    ensures Requests(t.outputs) == (if target in st.contents then [] else [target])
    ensures Commits(t.outputs) ==
              if st.drag.isDragEnded && ShouldChange(delta, cfg.width)
              then [SlideDidChange(st.selectedContent.value.index, target)]
              else []
    ensures st.drag.isDragEnded && ShouldChange(delta, cfg.width) ==>
              t.state.selectedContent == Some(t.state.contents[target]) && t.state.drag == st.drag.(canChange := false)
    ensures !(st.drag.isDragEnded && ShouldChange(delta, cfg.width)) ==>
              t.state.selectedContent == st.selectedContent && t.state.drag == st.drag
  {
    var current := st.selectedContent.value.index;
    var progress := SlideProgress(ProgressFactor(delta, cfg.width), target, translation);
    var preview := SlideSelectedContent(cfg, st, target, false, make);
    var rendered := [progress] + preview.outputs;
    FiltersSingle(progress);
    QuietThen([progress], preview.outputs);
    if st.drag.isDragEnded && ShouldChange(delta, cfg.width) then
      var commit := NeighbourCommit(preview.state, current, target);
      SilentThen(rendered, commit.outputs);
      ThenNoRequests(rendered, commit.outputs);
      Transition(commit.state, rendered + commit.outputs)
    else
      Transition(preview.state, rendered)
  }

  /**
   * What the neighbour-page branch reports: first the progress towards
   * `target`, the clamped `delta / halfPage` (so within [-1, 1], and
   * saturated whenever the tick commits); a cached
   * target keeps its content; a commit scrolls to the target's page origin
   * and ends with the announcement.
   */
  lemma NeighbourTickReports(cfg: Config, st: State, target: int, delta: real, translation: real, make: int -> Handle)
    requires cfg.SlideModeOn() && st.selectedContent.Some? && target != st.selectedContent.value.index
    ensures var t := NeighbourTick(cfg, st, target, delta, translation, make);
            && |t.outputs| > 0 && t.outputs[0] == SlideProgress(ProgressFactor(delta, cfg.width), target, translation)
            && -1.0 <= t.outputs[0].factor <= 1.0
            && (st.drag.isDragEnded && ShouldChange(delta, cfg.width) ==> Abs(t.outputs[0].factor) == 1.0)
            && (target in st.contents ==> t.state.contents[target].content == st.contents[target].content)
            && (st.drag.isDragEnded && ShouldChange(delta, cfg.width) ==>
                  && ScrollTo(SlidePageX(cfg, target)) in t.outputs
                  && t.outputs[|t.outputs| - 1] == SlideDidChange(st.selectedContent.value.index, target))
  {
    var t := NeighbourTick(cfg, st, target, delta, translation, make);
    var progress := SlideProgress(ProgressFactor(delta, cfg.width), target, translation);
    var preview := SlideSelectedContent(cfg, st, target, false, make);
    var rendered := [progress] + preview.outputs;
    NeighbourTickParts(cfg, st, target, delta, translation, make);
    assert rendered[0] == progress;
    if st.drag.isDragEnded && ShouldChange(delta, cfg.width) {
      CommitReportsFullProgress(delta, cfg.width);
      var commit := NeighbourCommit(preview.state, st.selectedContent.value.index, target);
      var x := preview.state.contents[target].x;
      assert x == SlidePageX(cfg, target);
      assert commit.outputs == [ScrollTo(x), SlideDidChange(st.selectedContent.value.index, target)];
      assert t.outputs == rendered + commit.outputs;
      RenderedThenCommit(rendered, x, SlideDidChange(st.selectedContent.value.index, target));
    } else {
      assert t.outputs == rendered;
    }
  }

  /** The callbacks of a rendering followed by a scroll and an announcement, by position. */
  lemma RenderedThenCommit(rendered: seq<Output>, x: real, done: Output)
    requires |rendered| > 0
    ensures var outs := rendered + [ScrollTo(x), done];
            outs[0] == rendered[0] && ScrollTo(x) in outs && outs[|outs| - 1] == done
  {
    var outs := rendered + [ScrollTo(x), done];
    assert outs[|rendered|] == ScrollTo(x);
  }

  /**
   * `slideScrollViewDidScroll`: slide mode. The tendency decides between the
   * overlay branch and the neighbour-page branch; a tick with neither target
   * does nothing. The postconditions name the dispatch so that callers need
   * not unfold the body.
   */
  function SlideScrollViewDidScroll(cfg: Config, st: State, offset: real, translation: real, make: int -> Handle): (t: Transition)
    requires cfg.SlideModeOn()
    ensures !Armed(st) ==> t == Transition(st, [])
    ensures Armed(st) ==>
              var tend := SlideTendency(cfg.cases, st.selectedContent.value.index, offset - st.drag.beganScrollOffset);
              tend.kind.None? && tend.index.Some? ==>
                t == NeighbourTick(cfg, st, tend.index.value, offset - st.drag.beganScrollOffset, translation, make)
    ensures Armed(st) ==>
              var tend := SlideTendency(cfg.cases, st.selectedContent.value.index, offset - st.drag.beganScrollOffset);
              && (tend.kind.Some? ==> t == OverlayTick(cfg, st, tend.kind.value, offset - st.drag.beganScrollOffset, translation))
              && (tend == Tendency(None, None) ==> t == Transition(st, []))
  {
    if !Armed(st) then
      Transition(st, [])
    else
      var current := st.selectedContent.value.index;
      var delta := offset - st.drag.beganScrollOffset;
      var tend := SlideTendency(cfg.cases, current, delta);
      if tend.kind.Some? then
        OverlayTick(cfg, st, tend.kind.value, delta, translation)
      else if tend.index.Some? then
        NeighbourTick(cfg, st, tend.index.value, delta, translation, make)
      else
        Transition(st, [])
  }

  /** The gesture's target on an armed slide-mode tick, if it has one. */
  predicate SlideTickHasTarget(cfg: Config, st: State, offset: real)
    requires Armed(st)
  {
    SlideTendency(cfg.cases, st.selectedContent.value.index, offset - st.drag.beganScrollOffset) != Tendency(None, None)
  }

  /**
   * A slide-mode tick announces at most one commit, and it announces one
   * exactly when it is armed, the drag has ended more than half a page from
   * where it began, and the drag has a target: `visualDidChange` for an
   * overlay target, `slideDidChange` from the selected index for a page
   * target. A commit disarms the gesture; a tick without one leaves the drag
   * fields alone.
   */
  lemma SlideTickCommits(cfg: Config, st: State, offset: real, translation: real, make: int -> Handle)
    requires cfg.SlideModeOn()
    ensures var t := SlideScrollViewDidScroll(cfg, st, offset, translation, make);
            && |Commits(t.outputs)| ==
                 (if && Armed(st) && st.drag.isDragEnded
                     && ShouldChange(offset - st.drag.beganScrollOffset, cfg.width)
                     && SlideTickHasTarget(cfg, st, offset)
                  then 1 else 0)
            && (Commits(t.outputs) != [] ==> !t.state.drag.canChange)
            && (Commits(t.outputs) == [] ==> t.state.drag == st.drag)
            && (Armed(st) && st.drag.isDragEnded && ShouldChange(offset - st.drag.beganScrollOffset, cfg.width) ==>
                  var tend := SlideTendency(cfg.cases, st.selectedContent.value.index, offset - st.drag.beganScrollOffset);
                  && (tend.kind.Some? ==> Commits(t.outputs) == [VisualDidChange(tend.kind.value)])
                  && (tend.kind.None? && tend.index.Some? ==>
                        Commits(t.outputs) == [SlideDidChange(st.selectedContent.value.index, tend.index.value)]))
  {
    var t := SlideScrollViewDidScroll(cfg, st, offset, translation, make);
    if !Armed(st) {
      assert t == Transition(st, []);
    } else {
      var delta := offset - st.drag.beganScrollOffset;
      var tend := SlideTendency(cfg.cases, st.selectedContent.value.index, delta);
      if tend.kind.Some? {
        assert t == OverlayTick(cfg, st, tend.kind.value, delta, translation);
        assert SlideTickHasTarget(cfg, st, offset);
        assert Commits(t.outputs) == if st.drag.isDragEnded && ShouldChange(delta, cfg.width) then [VisualDidChange(tend.kind.value)] else [];
      } else if tend.index.Some? {
        assert t == NeighbourTick(cfg, st, tend.index.value, delta, translation, make);
        assert SlideTickHasTarget(cfg, st, offset);
        assert Commits(t.outputs) == if st.drag.isDragEnded && ShouldChange(delta, cfg.width) then [SlideDidChange(st.selectedContent.value.index, tend.index.value)] else [];
      } else {
        assert t == Transition(st, []);
        assert !SlideTickHasTarget(cfg, st, offset);
      }
    }
  }

  /**
   * A slide-mode tick never clears the selection, and it moves the selection
   * only by a neighbour commit: to the registry entry, at its page origin, of
   * the case adjacent to the old one, announced by exactly that change.
   */
  lemma SlideTickSelection(cfg: Config, st: State, offset: real, translation: real, make: int -> Handle)
    requires cfg.SlideModeOn()
    ensures var t := SlideScrollViewDidScroll(cfg, st, offset, translation, make);
            && (st.selectedContent.Some? ==> t.state.selectedContent.Some?)
            && (t.state.selectedContent != st.selectedContent ==>
                  && st.selectedContent.Some? && t.state.selectedContent.Some?
                  && var a := st.selectedContent.value.index;
                     var b := t.state.selectedContent.value.index;
                     && Commits(t.outputs) == [SlideDidChange(a, b)]
                     && (b == a - 1 || b == a + 1) && b in cfg.cases
                     && t.state.selectedContent.value == IndexContent(b, t.state.contents[b].content, SlidePageX(cfg, b))
                     && t.state.contents[b] == t.state.selectedContent.value)
  {
    var t := SlideScrollViewDidScroll(cfg, st, offset, translation, make);
    if !Armed(st) {
      assert t == Transition(st, []);
    } else {
      var delta := offset - st.drag.beganScrollOffset;
      var tend := SlideTendency(cfg.cases, st.selectedContent.value.index, delta);
      if tend.kind.Some? {
        assert t == OverlayTick(cfg, st, tend.kind.value, delta, translation);
      } else if tend.index.Some? {
        assert t == NeighbourTick(cfg, st, tend.index.value, delta, translation, make);
        var b := tend.index.value;
        assert b == st.selectedContent.value.index - 1 || b == st.selectedContent.value.index + 1;
      } else {
        assert t == Transition(st, []);
      }
    }
  }

  /**
   * The registry went from `before` to `after` by adding exactly the indices
   * in `requested`: at most one, and only one that was not registered yet.
   */
  predicate GrowsBy(before: map<int, IndexContent>, after: map<int, IndexContent>, requested: seq<int>) {
    && |requested| <= 1
    && (forall i :: i in requested ==> i !in before)
    && after.Keys == before.Keys + (set i | i in requested)
  }

  /**
   * A slide-mode tick consults the factory at most once, only for an index
   * with nothing cached, and the registry grows by exactly the indices it
   * asked for.
   */
  lemma SlideTickRegistry(cfg: Config, st: State, offset: real, translation: real, make: int -> Handle)
    requires cfg.SlideModeOn()
    ensures var t := SlideScrollViewDidScroll(cfg, st, offset, translation, make);
            GrowsBy(st.contents, t.state.contents, Requests(t.outputs))
  {
    var t := SlideScrollViewDidScroll(cfg, st, offset, translation, make);
    if !Armed(st) {
      assert t == Transition(st, []);
      GrowsByNothing(st.contents);
    } else {
      var delta := offset - st.drag.beganScrollOffset;
      var tend := SlideTendency(cfg.cases, st.selectedContent.value.index, delta);
      if tend.kind.Some? {
        assert t == OverlayTick(cfg, st, tend.kind.value, delta, translation);
        assert t.state.contents == st.contents && Requests(t.outputs) == [];
        GrowsByNothing(st.contents);
      } else if tend.index.Some? {
        assert t == NeighbourTick(cfg, st, tend.index.value, delta, translation, make);
        NeighbourTickRegistry(cfg, st, tend.index.value, delta, translation, make);
      } else {
        assert t == Transition(st, []);
        GrowsByNothing(st.contents);
      }
    }
  }

  lemma GrowsByNothing(m: map<int, IndexContent>)
    ensures GrowsBy(m, m, [])
  {
    assert (set i: int | i in []) == {};
  }

  /** The neighbour-page branch asks for its target only when nothing is cached for it, and registers it. */
  lemma NeighbourTickRegistry(cfg: Config, st: State, target: int, delta: real, translation: real, make: int -> Handle)
    requires cfg.SlideModeOn() && st.selectedContent.Some? && target != st.selectedContent.value.index
    ensures var t := NeighbourTick(cfg, st, target, delta, translation, make);
            GrowsBy(st.contents, t.state.contents, Requests(t.outputs))
  {
    var t := NeighbourTick(cfg, st, target, delta, translation, make);
    GrowsByInsert(st.contents, target, t.state.contents[target], Requests(t.outputs));
  }

  /** The neighbour-page branch keeps the registry invariant. */
  lemma NeighbourTickValid(cfg: Config, st: State, target: int, delta: real, translation: real, make: int -> Handle)
    requires cfg.SlideModeOn() && st.selectedContent.Some? && target != st.selectedContent.value.index
    requires Valid(cfg, st)
    ensures Valid(cfg, NeighbourTick(cfg, st, target, delta, translation, make).state)
  {
    var t := NeighbourTick(cfg, st, target, delta, translation, make);
    var preview := SlideSelectedContent(cfg, st, target, false, make);
    SlideSelectedContentValid(cfg, st, target, false, make);
    assert t.state.contents == preview.state.contents;
    assert t.state.selectedContent == preview.state.selectedContent || t.state.selectedContent == Some(preview.state.contents[target]);
  }

  /** Storing an entry grows the registry by its index exactly when that index was not registered. */
  lemma GrowsByInsert(m: map<int, IndexContent>, k: int, v: IndexContent, requested: seq<int>)
    requires requested == (if k in m then [] else [k])
    ensures GrowsBy(m, m[k := v], requested)
  {
    if k in m {
      assert (set i: int | i in requested) == {};
      assert m[k := v].Keys == m.Keys;
    } else {
      assert (set i: int | i in requested) == {k};
    }
  }

  /** A slide-mode tick keeps the registry invariant. */
  lemma SlideTickValid(cfg: Config, st: State, offset: real, translation: real, make: int -> Handle)
    requires cfg.SlideModeOn() && Valid(cfg, st)
    ensures Valid(cfg, SlideScrollViewDidScroll(cfg, st, offset, translation, make).state)
  {
    var t := SlideScrollViewDidScroll(cfg, st, offset, translation, make);
    if !Armed(st) {
      assert t == Transition(st, []);
    } else {
      var delta := offset - st.drag.beganScrollOffset;
      var tend := SlideTendency(cfg.cases, st.selectedContent.value.index, delta);
      if tend.kind.Some? {
        assert t == OverlayTick(cfg, st, tend.kind.value, delta, translation);
        assert t.state.contents == st.contents && t.state.selectedContent == st.selectedContent;
      } else if tend.index.Some? {
        assert t == NeighbourTick(cfg, st, tend.index.value, delta, translation, make);
        NeighbourTickValid(cfg, st, tend.index.value, delta, translation, make);
      } else {
        assert t == Transition(st, []);
      }
    }
  }

  /** An armed slide-mode tick heading for a page heads for a page other than the selected one. */
  lemma SlideTickNeighbourTarget(cfg: Config, st: State, offset: real, target: int)
    requires Armed(st)
    requires SlideTendency(cfg.cases, st.selectedContent.value.index, offset - st.drag.beganScrollOffset) == Tendency(None, Some(target))
    ensures target != st.selectedContent.value.index
  {
    assert offset - st.drag.beganScrollOffset != 0.0;
  }

  /** An armed slide-mode tick heading for a page is the neighbour branch for that page. */
  lemma SlideTickIsNeighbourTick(cfg: Config, st: State, offset: real, translation: real, make: int -> Handle)
    requires cfg.SlideModeOn() && Armed(st)
    requires var tend := SlideTendency(cfg.cases, st.selectedContent.value.index, offset - st.drag.beganScrollOffset);
             tend.kind.None? && tend.index.Some?
    ensures var tend := SlideTendency(cfg.cases, st.selectedContent.value.index, offset - st.drag.beganScrollOffset);
            SlideScrollViewDidScroll(cfg, st, offset, translation, make) ==
              NeighbourTick(cfg, st, tend.index.value, offset - st.drag.beganScrollOffset, translation, make)
  {
  }

  /** The neighbour branch, taken apart into the progress report, the rendering of the target and the commit. */
  lemma NeighbourTickParts(cfg: Config, st: State, target: int, delta: real, translation: real, make: int -> Handle)
    requires cfg.SlideModeOn() && st.selectedContent.Some? && target != st.selectedContent.value.index
    ensures var preview := SlideSelectedContent(cfg, st, target, false, make);
            var rendered := [SlideProgress(ProgressFactor(delta, cfg.width), target, translation)] + preview.outputs;
            var commit := NeighbourCommit(preview.state, st.selectedContent.value.index, target);
            NeighbourTick(cfg, st, target, delta, translation, make) ==
              if st.drag.isDragEnded && ShouldChange(delta, cfg.width)
              then Transition(commit.state, rendered + commit.outputs)
              else Transition(preview.state, rendered)
  {
  }

  /** A preview of a page that is not selected stores it at its origin and configures it at once. */
  lemma PreviewParts(cfg: Config, st: State, index: int, make: int -> Handle)
    requires cfg.SlideModeOn() && !IsSelected(st, index)
    ensures var entry := IndexContent(index, CachedOrMake(st, index, make), SlidePageX(cfg, index));
            SlideSelectedContent(cfg, st, index, false, make) ==
              Transition(st.(contents := st.contents[index := entry]),
                         RequestIfMissing(st, index) + [Configure(index, st.selectedContent.None?)])
  {
    assert RequestIfMissing(st, index) + [] == RequestIfMissing(st, index);
  }
}

=== FILE: controller.dfy ===
/**
 * The controller as a whole: the three things that can happen to it (the pan
 * recognizer changes state, the scroll view scrolls, someone selects an
 * index), one step per event, and runs of events. The properties here are
 * the ones a delegate relies on across many callbacks.
 */
module Controller {
  import opened Wrappers
  import opened SlideIndex
  import opened Layout
  import opened Gesture
  import opened Outputs
  import opened Container

  /** What the controller reacts to once it is on screen. */
  datatype Event =
    | Pan(pan: PanState, offset: real)           // the observed pan recognizer changed state; `offset` is `contentOffset.x`
    | Scrolled(offset: real, translation: real)  // `scrollViewDidScroll`; `translation` is `touchTranslation().x`
    | Select(index: int)                         // `_selectedContent(at:)`
  {
    /** The event that starts a gesture. */
    predicate Rearms() {
      Pan? && pan == Began
    }
  }

  /** One event: `observeValue`, `scrollViewDidScroll` or `_selectedContent`, dispatched on the mode. */
  function Step(cfg: Config, st: State, ev: Event, make: int -> Handle): (t: Transition)
    ensures ev.Pan? ==> t.outputs == [] && t.state.contents == st.contents && t.state.selectedContent == st.selectedContent
    ensures ev.Pan? ==> t == Transition(ObserveValue(st, ev.pan, ev.offset), [])
    ensures ev.Select? ==> t.state.drag == st.drag
    ensures ev.Scrolled? && cfg.SlideModeOn() ==> t == SlideScrollViewDidScroll(cfg, st, ev.offset, ev.translation, make)
    ensures ev.Scrolled? && !cfg.SlideModeOn() ==> t == NormalScrollViewDidScroll(cfg, st, ev.offset, ev.translation)
  {
    match ev
    case Pan(pan, offset) =>
      Transition(ObserveValue(st, pan, offset), [])
    case Scrolled(offset, translation) =>
      if cfg.SlideModeOn() then SlideScrollViewDidScroll(cfg, st, offset, translation, make)
      else NormalScrollViewDidScroll(cfg, st, offset, translation)
    case Select(index) =>
      if cfg.SlideModeOn() then SlideSelectedContent(cfg, st, index, true, make)
      else NormalSelectedContent(cfg, st, index, make)
  }

  /**
   * One step announces at most one commit, only from an armed gesture, and
   * disarms the gesture when it does. Only a "began" pan event can arm it.
   */
  lemma StepCommits(cfg: Config, st: State, ev: Event, make: int -> Handle)
    ensures var t := Step(cfg, st, ev, make);
            && |Commits(t.outputs)| <= 1
            && (Commits(t.outputs) != [] ==> st.drag.canChange && !t.state.drag.canChange)
            && (!ev.Rearms() && t.state.drag.canChange ==> st.drag.canChange)
  {
    if ev.Scrolled? && cfg.SlideModeOn() {
      SlideTickCommits(cfg, st, ev.offset, ev.translation, make);
    }
  }

  /** One step consults the factory at most once, only for an unregistered index, and registers exactly what it asked for. */
  lemma StepRegistry(cfg: Config, st: State, ev: Event, make: int -> Handle)
    ensures var t := Step(cfg, st, ev, make);
            GrowsBy(st.contents, t.state.contents, Requests(t.outputs))
  {
    var t := Step(cfg, st, ev, make);
    match ev
    case Pan(_, _) =>
      GrowsByNothing(st.contents);
    case Scrolled(offset, translation) =>
      if cfg.SlideModeOn() {
        SlideTickRegistry(cfg, st, offset, translation, make);
      } else {
        GrowsByNothing(st.contents);
      }
    case Select(index) =>
      if IsSelected(st, index) {
        GrowsByNothing(st.contents);
      } else {
        GrowsByInsert(st.contents, index, t.state.contents[index], Requests(t.outputs));
      }
  }

  /** One step keeps the registry invariant. */
  lemma StepValid(cfg: Config, st: State, ev: Event, make: int -> Handle)
    requires Valid(cfg, st)
    ensures Valid(cfg, Step(cfg, st, ev, make).state)
  {
    match ev
    case Pan(_, _) =>
    case Scrolled(offset, translation) =>
      if cfg.SlideModeOn() {
        SlideTickValid(cfg, st, offset, translation, make);
      }
    case Select(index) =>
      if cfg.SlideModeOn() {
        SlideSelectedContentValid(cfg, st, index, true, make);
      } else {
        NormalSelectedContentValid(cfg, st, index, make);
      }
  }

  /** Selecting an index makes it the selection. */
  lemma SelectSelects(cfg: Config, st: State, index: int, make: int -> Handle)
    requires Valid(cfg, st)
    ensures var t := Step(cfg, st, Select(index), make);
            t.state.selectedContent.Some? && t.state.selectedContent.value.index == index
  {
  }

  /** The selected index, if any. */
  function IndexOf(sel: Option<IndexContent>): Option<int> {
    if sel.Some? then Some(sel.value.index) else None
  }

  /**
   * The selected index a delegate would believe in if it started from `known`
   * and followed only the `slideDidChange` callbacks among `commits`.
   */
  function Announced(known: Option<int>, commits: seq<Output>): Option<int>
    decreases |commits|
  {
    if commits == [] then known
    else Announced(if commits[0].SlideDidChange? then Some(commits[0].newIndex) else known, commits[1..])
  }

  /** Following two batches of callbacks is following their concatenation. */
  lemma {:induction false} AnnouncedAppend(known: Option<int>, a: seq<Output>, b: seq<Output>)
    ensures Announced(known, a + b) == Announced(Announced(known, a), b)
    decreases |a|
  {
    if a == [] {
      assert a + b == b;
    } else {
      assert (a + b)[0] == a[0];
      assert (a + b)[1..] == a[1..] + b;
      AnnouncedAppend(if a[0].SlideDidChange? then Some(a[0].newIndex) else known, a[1..], b);
    }
  }

  /**
   * Apart from an explicit selection, a step never clears the selection and
   * changes it exactly as its `slideDidChange` callback says: a delegate that
   * tracks those callbacks knows the selected index.
   */
  lemma StepSelection(cfg: Config, st: State, ev: Event, make: int -> Handle)
    ensures var t := Step(cfg, st, ev, make);
            && (st.selectedContent.Some? ==> t.state.selectedContent.Some?)
            && (!ev.Select? ==>
                  IndexOf(t.state.selectedContent) == Announced(IndexOf(st.selectedContent), Commits(t.outputs)))
  {
    var t := Step(cfg, st, ev, make);
    if ev.Scrolled? {
      if cfg.SlideModeOn() {
        SlideTickSelection(cfg, st, ev.offset, ev.translation, make);
        SlideTickAnnounces(cfg, st, ev.offset, ev.translation, make);
      } else {
        var c := Commits(t.outputs);
        assert c == [] || (|c| == 1 && c[0].VisualDidChange?);
        assert c != [] ==> c[1..] == [];
      }
    }
  }

  /** A slide-mode tick changes the selected index exactly as its `slideDidChange` callback announces. */
  lemma SlideTickAnnounces(cfg: Config, st: State, offset: real, translation: real, make: int -> Handle)
    requires cfg.SlideModeOn()
    ensures var t := SlideScrollViewDidScroll(cfg, st, offset, translation, make);
            IndexOf(t.state.selectedContent) == Announced(IndexOf(st.selectedContent), Commits(t.outputs))
  {
    var t := SlideScrollViewDidScroll(cfg, st, offset, translation, make);
    var known := IndexOf(st.selectedContent);
    if !Armed(st) {
      assert t == Transition(st, []);
    } else {
      var delta := offset - st.drag.beganScrollOffset;
      var tend := SlideTendency(cfg.cases, st.selectedContent.value.index, delta);
      var commit := st.drag.isDragEnded && ShouldChange(delta, cfg.width);
      if tend.kind.Some? {
        assert t == OverlayTick(cfg, st, tend.kind.value, delta, translation);
        if commit {
          assert Commits(t.outputs) == [VisualDidChange(tend.kind.value)];
          AnnouncedSingle(known, VisualDidChange(tend.kind.value));
        }
      } else if tend.index.Some? {
        var b := tend.index.value;
        assert t == NeighbourTick(cfg, st, b, delta, translation, make);
        if commit {
          assert Commits(t.outputs) == [SlideDidChange(st.selectedContent.value.index, b)];
          assert t.state.selectedContent.value.index == b;
          AnnouncedSingle(known, SlideDidChange(st.selectedContent.value.index, b));
        }
      } else {
        assert t == Transition(st, []);
      }
    }
  }

  /** A single callback moves the believed index only when it is a page change. */
  lemma AnnouncedSingle(known: Option<int>, o: Output)
    ensures Announced(known, [o]) == if o.SlideDidChange? then Some(o.newIndex) else known
  {
    assert [o][1..] == [];
  }

  /** A run of events, one step after another, with the outputs of all steps in order. */
  function Run(cfg: Config, st: State, evs: seq<Event>, make: int -> Handle): (t: Transition)
    ensures st.contents.Keys <= t.state.contents.Keys
    ensures st.selectedContent.Some? ==> t.state.selectedContent.Some?
    decreases |evs|
  {
    if evs == [] then
      Transition(st, [])
    else
      var first := Step(cfg, st, evs[0], make);
      StepRegistry(cfg, st, evs[0], make);
      StepSelection(cfg, st, evs[0], make);
      var rest := Run(cfg, first.state, evs[1..], make);
      Transition(rest.state, first.outputs + rest.outputs)
  }

  /** A run starting with `ev` is that step followed by the rest of the run. */
  lemma RunCons(cfg: Config, st: State, ev: Event, evs: seq<Event>, make: int -> Handle)
    ensures var first := Step(cfg, st, ev, make);
            var rest := Run(cfg, first.state, evs, make);
            Run(cfg, st, [ev] + evs, make) == Transition(rest.state, first.outputs + rest.outputs)
  {
    assert ([ev] + evs)[0] == ev && ([ev] + evs)[1..] == evs;
  }

  /** A run keeps the registry invariant. */
  lemma {:induction false} RunValid(cfg: Config, st: State, evs: seq<Event>, make: int -> Handle)
    requires Valid(cfg, st)
    ensures Valid(cfg, Run(cfg, st, evs, make).state)
    decreases |evs|
  {
    if evs != [] {
      StepValid(cfg, st, evs[0], make);
      RunValid(cfg, Step(cfg, st, evs[0], make).state, evs[1..], make);
    }
  }

  /**
   * The registry went from `before` to `after` by adding exactly the indices
   * in `requested`, each of them new and each asked for once.
   */
  predicate GrowsByAll(before: map<int, IndexContent>, after: map<int, IndexContent>, requested: seq<int>) {
    && (forall k, l :: 0 <= k < l < |requested| ==> requested[k] != requested[l])
    && (forall i :: i in requested ==> i !in before)
    && after.Keys == before.Keys + (set i | i in requested)
  }

  /**
   * Over any run of events the factory is consulted at most once per index,
   * never for an index that was already registered, and the registry ends up
   * holding exactly the indices it held plus the ones asked for.
   */
  lemma {:induction false} RunRegistry(cfg: Config, st: State, evs: seq<Event>, make: int -> Handle)
    ensures var t := Run(cfg, st, evs, make);
            GrowsByAll(st.contents, t.state.contents, Requests(t.outputs))
    decreases |evs|
  {
    if evs == [] {
      assert (set i: int | i in []) == {};
    } else {
      var first := Step(cfg, st, evs[0], make);
      var rest := Run(cfg, first.state, evs[1..], make);
      StepRegistry(cfg, st, evs[0], make);
      RunRegistry(cfg, first.state, evs[1..], make);
      RequestsAppend(first.outputs, rest.outputs);
      GrowsByConcat(st.contents, first.state.contents, rest.state.contents, Requests(first.outputs), Requests(rest.outputs));
    }
  }

  lemma GrowsByConcat(a: map<int, IndexContent>, b: map<int, IndexContent>, c: map<int, IndexContent>, r: seq<int>, s: seq<int>)
    requires GrowsBy(a, b, r) && GrowsByAll(b, c, s)
    ensures GrowsByAll(a, c, r + s)
  {
    assert (set i | i in r + s) == (set i | i in r) + (set i | i in s);
    forall k, l | 0 <= k < l < |r + s|
      ensures (r + s)[k] != (r + s)[l]
    {
      if l < |r| {
      } else if k < |r| {
        assert (r + s)[k] in r && (r + s)[k] in b;
        assert (r + s)[l] in s;
      } else {
        assert (r + s)[k] == s[k - |r|] && (r + s)[l] == s[l - |r|];
      }
    }
  }

  /** No event of `evs` starts a gesture. */
  predicate NoRearm(evs: seq<Event>) {
    forall k :: 0 <= k < |evs| ==> !evs[k].Rearms()
  }

  /**
   * Within a gesture, commits are announced at most once: a run with no
   * "began" event announces at most one commit, and none when it starts
   * disarmed.
   */
  lemma {:induction false} RunCommitsAtMostOnce(cfg: Config, st: State, evs: seq<Event>, make: int -> Handle)
    requires NoRearm(evs)
    ensures var t := Run(cfg, st, evs, make);
            && |Commits(t.outputs)| <= (if st.drag.canChange then 1 else 0)
            && (t.state.drag.canChange ==> st.drag.canChange)
    decreases |evs|
  {
    if evs != [] {
      var first := Step(cfg, st, evs[0], make);
      var rest := Run(cfg, first.state, evs[1..], make);
      assert !evs[0].Rearms();
      assert NoRearm(evs[1..]) by {
        forall k | 0 <= k < |evs[1..]| ensures !evs[1..][k].Rearms() {
          assert evs[1..][k] == evs[k + 1];
        }
      }
      StepCommits(cfg, st, evs[0], make);
      RunCommitsAtMostOnce(cfg, first.state, evs[1..], make);
      CommitsAppend(first.outputs, rest.outputs);
    }
  }

  /** A whole gesture (a "began" event and everything up to the next one) announces at most one commit. */
  lemma OneCommitPerGesture(cfg: Config, st: State, offset: real, evs: seq<Event>, make: int -> Handle)
    requires NoRearm(evs)
    ensures |Commits(Run(cfg, st, [Pan(Began, offset)] + evs, make).outputs)| <= 1
  {
    var gesture := [Pan(Began, offset)] + evs;
    assert gesture[0] == Pan(Began, offset) && gesture[1..] == evs;
    var armed := Step(cfg, st, gesture[0], make);
    RunCommitsAtMostOnce(cfg, armed.state, evs, make);
    CommitsAppend(armed.outputs, Run(cfg, armed.state, evs, make).outputs);
  }

  /** No event of `evs` is an explicit selection. */
  predicate NoSelect(evs: seq<Event>) {
    forall k :: 0 <= k < |evs| ==> !evs[k].Select?
  }

  /**
   * Over any run without explicit selections, a delegate that starts from
   * the selected index and follows the `slideDidChange` callbacks always
   * knows which index is selected.
   */
  lemma {:induction false} RunAnnouncesSelection(cfg: Config, st: State, evs: seq<Event>, make: int -> Handle)
    requires NoSelect(evs)
    ensures var t := Run(cfg, st, evs, make);
            IndexOf(t.state.selectedContent) == Announced(IndexOf(st.selectedContent), Commits(t.outputs))
    decreases |evs|
  {
    if evs != [] {
      var first := Step(cfg, st, evs[0], make);
      var rest := Run(cfg, first.state, evs[1..], make);
      assert !evs[0].Select?;
      assert NoSelect(evs[1..]) by {
        forall k | 0 <= k < |evs[1..]| ensures !evs[1..][k].Select? {
          assert evs[1..][k] == evs[k + 1];
        }
      }
      StepSelection(cfg, st, evs[0], make);
      RunAnnouncesSelection(cfg, first.state, evs[1..], make);
      CommitsAppend(first.outputs, rest.outputs);
      AnnouncedAppend(IndexOf(st.selectedContent), Commits(first.outputs), Commits(rest.outputs));
    }
  }

  /** In slide mode a scroll tick is `slideScrollViewDidScroll`; a helper for concrete runs. */
  lemma StepTickIsSlideTick(cfg: Config, st: State, offset: real, translation: real, make: int -> Handle)
    requires cfg.SlideModeOn()
    ensures Step(cfg, st, Scrolled(offset, translation), make) == SlideScrollViewDidScroll(cfg, st, offset, translation, make)
  {
  }

  /**
   * `Step` as the source wires it: `prepareSlideModeContent(isOn: false)`
   * never registers the pan observer, so in stack mode pan events are lost.
   * A disarmed stack-mode controller then stays disarmed and commits nothing.
   */
  function StepAsWritten(cfg: Config, st: State, ev: Event, make: int -> Handle): (t: Transition)
    ensures !cfg.SlideModeOn() && !st.drag.canChange ==> !t.state.drag.canChange && Commits(t.outputs) == []
  {
    if ev.Pan? && !cfg.SlideModeOn() then
      Transition(st, [])
    else
      StepCommits(cfg, st, ev, make);
      Step(cfg, st, ev, make)
  }

  /** A run of events under `StepAsWritten`. */
  function RunAsWritten(cfg: Config, st: State, evs: seq<Event>, make: int -> Handle): Transition
    decreases |evs|
  {
    if evs == [] then
      Transition(st, [])
    else
      var first := StepAsWritten(cfg, st, evs[0], make);
      var rest := RunAsWritten(cfg, first.state, evs[1..], make);
      Transition(rest.state, first.outputs + rest.outputs)
  }

  /**
   * As written, a stack-mode controller that starts disarmed (as it always
   * does, `canChange` being false initially) never arms a gesture and so
   * never commits, whatever the events: the overlay handling of
   * `normalScrollViewDidScroll` is unreachable.
   */
  lemma {:induction false} StackModeNeverCommitsAsWritten(cfg: Config, st: State, evs: seq<Event>, make: int -> Handle)
    requires !cfg.SlideModeOn() && !st.drag.canChange
    ensures var t := RunAsWritten(cfg, st, evs, make);
            Commits(t.outputs) == [] && !t.state.drag.canChange
    decreases |evs|
  {
    if evs != [] {
      var first := StepAsWritten(cfg, st, evs[0], make);
      var rest := RunAsWritten(cfg, first.state, evs[1..], make);
      StackModeNeverCommitsAsWritten(cfg, first.state, evs[1..], make);
      CommitsAppend(first.outputs, rest.outputs);
    }
  }

  /**
   * With the pan recognizer observed in stack mode too, a stack-mode gesture
   * that ends more than half a page away from where it began commits to the
   * overlay on its side on the next tick.
   */
  lemma StackGestureCommits(cfg: Config, st: State, began: real, ended: real, translation: real, make: int -> Handle)
    requires !cfg.SlideModeOn() && st.selectedContent.Some?
    requires ShouldChange(ended - began, cfg.width)
    ensures var armed := Step(cfg, st, Pan(Began, began), make).state;
            var lifted := Step(cfg, armed, Pan(Ended, ended), make).state;
            var t := Step(cfg, lifted, Scrolled(ended, translation), make);
            Commits(t.outputs) == [VisualDidChange(if ended < began then Header else Footer)]
  {
    var armed := ObserveValue(st, Began, began);
    var lifted := ObserveValue(armed, Ended, ended);
    assert lifted.drag == Drag(began, true, true, {});
    assert Armed(lifted);
    assert Step(cfg, lifted, Scrolled(ended, translation), make) == NormalScrollViewDidScroll(cfg, lifted, ended, translation);
  }

  /**
   * A slide-mode gesture that ends more than half a page away from where it
   * began, towards a target, commits to that target on the next tick: the
   * overlay by `visualDidChange`, a neighbour page by `slideDidChange` from
   * the selected index.
   */
  lemma SlideGestureCommits(cfg: Config, st: State, began: real, ended: real, translation: real, make: int -> Handle)
    requires cfg.SlideModeOn() && st.selectedContent.Some?
    requires ShouldChange(ended - began, cfg.width)
    requires SlideTendency(cfg.cases, st.selectedContent.value.index, ended - began) != Tendency(None, None)
    ensures var armed := Step(cfg, st, Pan(Began, began), make).state;
            var lifted := Step(cfg, armed, Pan(Ended, ended), make).state;
            var t := Step(cfg, lifted, Scrolled(ended, translation), make);
            var tend := SlideTendency(cfg.cases, st.selectedContent.value.index, ended - began);
            Commits(t.outputs) ==
              if tend.kind.Some? then [VisualDidChange(tend.kind.value)]
              else [SlideDidChange(st.selectedContent.value.index, tend.index.value)]
  {
    var armed := ObserveValue(st, Began, began);
    var lifted := ObserveValue(armed, Ended, ended);
    assert lifted.drag == Drag(began, true, true, {});
    assert lifted.selectedContent == st.selectedContent;
    assert Armed(lifted);
    SlideTickCommits(cfg, lifted, ended, translation, make);
  }
}

=== FILE: gesture.dfy ===
/**
 * The arithmetic a scroll tick performs on the drag distance: the progress
 * factor reported to the delegate, the half-page commit threshold, and the
 * tendency (which neighbour page or overlay the drag is heading for).
 */
module Gesture {
  import opened Wrappers
  import opened SlideIndex
  import opened Layout

  function Abs(x: real): real {
    if x < 0.0 then -x else x
  }

  /** `clampFactor`: limits a factor to [-1, 1]. */
  function Clamp(v: real): (r: real)
    ensures -1.0 <= r <= 1.0
    ensures -1.0 <= v <= 1.0 ==> r == v
    ensures v < -1.0 ==> r == -1.0
    ensures v > 1.0 ==> r == 1.0
  {
    if v < -1.0 then -1.0 else if v > 1.0 then 1.0 else v
  }

  /** `halfPage = page * 0.5`. */
  function HalfPage(page: Width): real {
    page * 0.5
  }

  /**
   * The factor handed to the progress callbacks: the drag distance measured
   * in half pages, clamped to [-1, 1]. It has the sign of the drag, saturates
   * exactly once the drag reaches half a page, and is proportional below that.
   * For a zero-width container the floating-point division gives an infinity
   * of the drag's sign, which the clamp turns into -1 or 1; a zero drag there
   * gives NaN in the source, but such a tick has no tendency and reports nothing.
   */
  function ProgressFactor(delta: real, page: Width): (f: real)
    ensures -1.0 <= f <= 1.0
    ensures f > 0.0 <==> delta > 0.0
    ensures f < 0.0 <==> delta < 0.0
    ensures page > 0.0 || delta != 0.0 ==> (Abs(f) == 1.0 <==> Abs(delta) >= HalfPage(page))
    ensures Abs(delta) <= HalfPage(page) && page > 0.0 ==> f * HalfPage(page) == delta
  {
    if page == 0.0 then
      (if delta > 0.0 then 1.0 else if delta < 0.0 then -1.0 else 0.0)
    else
      var v := delta / HalfPage(page);
      var h := HalfPage(page);
      assert v * h == delta;
      assert (v - 1.0) * h == delta - h && (v + 1.0) * h == delta + h;
      PositiveScaleKeepsSign(v - 1.0, h);
      PositiveScaleKeepsSign(v + 1.0, h);
      Clamp(v)
  }

  /** Multiplying by a positive number keeps the sign. */
  lemma PositiveScaleKeepsSign(a: real, h: real)
    requires h > 0.0
    ensures a >= 0.0 <==> a * h >= 0.0
    ensures a <= 0.0 <==> a * h <= 0.0
  {
    if a < 0.0 {
      assert a * h < 0.0;
    } else if a > 0.0 {
      assert a * h > 0.0;
    }
  }

  /** `abs(scrollOffsetDelta) > halfPage`: the strict half-page commit rule. */
  predicate ShouldChange(delta: real, page: Width) {
    Abs(delta) > HalfPage(page)
  }

  /** A drag of exactly half a page, in either direction, does not commit. */
  lemma HalfPageDoesNotCommit(page: Width)
    ensures !ShouldChange(HalfPage(page), page) && !ShouldChange(-HalfPage(page), page)
  {
  }

  /** Whenever a drag is far enough to commit, the progress it reports is saturated. */
  lemma CommitReportsFullProgress(delta: real, page: Width)
    requires ShouldChange(delta, page)
    ensures ProgressFactor(delta, page) == (if delta < 0.0 then -1.0 else 1.0)
  {
  }

  /** `tendToKind` and `tendToSelectedIndex` of one tick. */
  datatype Tendency = Tendency(kind: Option<Kind>, index: Option<int>)

  /**
   * Slide mode: a drag towards smaller offsets heads for the previous page,
   * or for the header when the current index is the first case; a drag
   * towards larger offsets heads for the next page, or for the footer at the
   * last case; no drag heads nowhere. An overlay and a page are never both
   * the target.
   */
  function SlideTendency(cases: Cases, current: int, delta: real): (t: Tendency)
    ensures !(t.kind.Some? && t.index.Some?)
    ensures delta == 0.0 ==> t == Tendency(None, None)
    ensures t.kind == Some(Header) <==> delta < 0.0 && IsEqualToFirst(cases, current)
    ensures t.kind == Some(Footer) <==> delta > 0.0 && IsEqualToLast(cases, current)
    ensures t.index.Some? ==> t.index.value in cases
    ensures t.index.Some? && delta < 0.0 ==> t.index.value == current - 1 && !IsEqualToFirst(cases, current)
    ensures t.index.Some? && delta > 0.0 ==> t.index.value == current + 1 && !IsEqualToLast(cases, current)
    ensures delta < 0.0 && !IsEqualToFirst(cases, current) ==> t == Tendency(None, Preview(cases, current))
    ensures delta > 0.0 && !IsEqualToLast(cases, current) ==> t == Tendency(None, Next(cases, current))
  {
    if delta < 0.0 then
      var kind := if IsEqualToFirst(cases, current) then Some(Header) else None;
      Tendency(kind, if kind == None then Preview(cases, current) else None)
    else if delta > 0.0 then
      var kind := if IsEqualToLast(cases, current) then Some(Footer) else None;
      Tendency(kind, if kind == None then Next(cases, current) else None)
    else
      Tendency(None, None)
  }

  /** Stack mode: the only possible targets are the two overlays. */
  function StackTendency(delta: real): (k: Option<Kind>)
    ensures k == Some(Header) <==> delta < 0.0
    ensures k == Some(Footer) <==> delta > 0.0
  {
    if delta < 0.0 then Some(Header) else if delta > 0.0 then Some(Footer) else None
  }

  /**
   * With contiguous raw values every non-zero drag has exactly one target:
   * the overlay when the current page is at that end of the sequence, and
   * the adjacent page otherwise.
   */
  lemma {:induction false} ContiguousDragHasOneTarget(cases: Cases, current: int, delta: real)
    requires Contiguous(cases) && current in cases && delta != 0.0
    ensures SlideTendency(cases, current, delta).kind.Some? != SlideTendency(cases, current, delta).index.Some?
    ensures SlideTendency(cases, current, delta).index.Some? ==>
              0 <= SlideTendency(cases, current, delta).index.value < |cases|
  {
    ContiguousNeighbours(cases, current);
    var t := SlideTendency(cases, current, delta);
    if t.index.Some? {
      ContiguousNeighbours(cases, t.index.value);
    }
  }
}

=== FILE: layout.dfy ===
/**
 * The container's scroll coordinate space: one page-width panel per page in
 * slide mode (one in stack mode), preceded by the header overlay and followed
 * by the footer overlay when those are attached. Every panel, overlays
 * included, is one container width wide.
 */
module Layout {
  import opened SlideIndex

  /** `ContentVisualContentKind`: which overlay panel. */
  datatype Kind = Header | Footer

  type Width = w: real | 0.0 <= w

  /**
   * What the container knows about itself once its one-time setup has run:
   * - `slidable`: the index type conforms to `ContainerSlideDiretionIndex`;
   * - `wantsSlide`: the delegate's `containerShouldSlideModeOn` answer;
   * - `cases`: the raw values of `allCases` (meaningful only when `slidable`);
   * - `width`: `container.frame.width`, which is also the overlay size;
   * - `hasHeader`, `hasFooter`: whether the delegate supplied overlay views.
   */
  datatype Config = Config(
    slidable: bool,
    wantsSlide: bool,
    cases: Cases,
    width: Width,
    hasHeader: bool,
    hasFooter: bool)
  {
    /** `isSlideModeOn`: the index type can slide and the delegate asks for it. */
    predicate SlideModeOn() {
      slidable && wantsSlide
    }
  }

  /** Number of pages laid out side by side: all cases in slide mode, one otherwise. */
  function PageCount(cfg: Config): nat {
    if cfg.SlideModeOn() then |cfg.cases| else 1
  }

  /** Number of overlay panels attached. */
  function OverlayCount(cfg: Config): nat {
    (if cfg.hasHeader then 1 else 0) + (if cfg.hasFooter then 1 else 0)
  }

  /** `visualSize`: an overlay is as wide as the container. */
  function VisualSize(cfg: Config): Width {
    cfg.width
  }

  /** `visualLeadingOffset`: everything after the header is shifted by its width. */
  function VisualLeadingOffset(cfg: Config): real {
    if cfg.hasHeader then VisualSize(cfg) else 0.0
  }

  /** `adjustContentSize`: the width of the scrollable content. */
  function ContentWidth(cfg: Config): (r: real)
    ensures r == (PageCount(cfg) + OverlayCount(cfg)) as real * cfg.width
  {
    var base := if cfg.SlideModeOn() then |cfg.cases| as real * cfg.width else cfg.width;
    var withHeader := if cfg.hasHeader then base + VisualSize(cfg) else base;
    if cfg.hasFooter then withHeader + VisualSize(cfg) else withHeader
  }

  /** `layoutVisualElements`: the header's x origin. */
  function HeaderX(cfg: Config): real {
    0.0
  }

  /** `layoutVisualElements`: the footer's x origin (used only when a footer is attached). */
  function FooterX(cfg: Config): real {
    var base := if cfg.SlideModeOn() then |cfg.cases| as real * cfg.width else cfg.width;
    base + (if cfg.hasHeader then VisualSize(cfg) else 0.0)
  }

  /** Slide mode: the x origin given to page `i` by `_slideSelectedContent`. */
  function SlidePageX(cfg: Config, i: int): real {
    IndexPath(i) as real * cfg.width + VisualLeadingOffset(cfg)
  }

  /** Stack mode: every page is placed at the same origin by `_normalSelectedContent`. */
  function StackPageX(cfg: Config): real {
    VisualLeadingOffset(cfg)
  }

  /** Where the container places the page of index `i`, in its current mode. */
  function PageX(cfg: Config, i: int): real {
    if cfg.SlideModeOn() then SlidePageX(cfg, i) else StackPageX(cfg)
  }

  /**
   * In slide mode with contiguous raw values the panels tile the content
   * exactly: header at 0, page 0 right after it, each page one width after
   * the previous one, the footer right after the last page, and the content
   * ending where the footer (or the last page) ends.
   */
  lemma {:induction false} SlidePanelsTileContent(cfg: Config)
    requires cfg.SlideModeOn() && Contiguous(cfg.cases) && |cfg.cases| > 0
    ensures HeaderX(cfg) == 0.0
    ensures VisualLeadingOffset(cfg) == HeaderX(cfg) + (if cfg.hasHeader then cfg.width else 0.0)
    ensures PageX(cfg, cfg.cases[0]) == VisualLeadingOffset(cfg)
    ensures forall k :: 0 <= k < |cfg.cases| - 1 ==>
              PageX(cfg, cfg.cases[k + 1]) == PageX(cfg, cfg.cases[k]) + cfg.width
    ensures PageX(cfg, cfg.cases[|cfg.cases| - 1]) + cfg.width == FooterX(cfg)
    ensures FooterX(cfg) + (if cfg.hasFooter then cfg.width else 0.0) == ContentWidth(cfg)
  {
    var n := |cfg.cases|;
    forall k | 0 <= k < n - 1
      ensures PageX(cfg, cfg.cases[k + 1]) == PageX(cfg, cfg.cases[k]) + cfg.width
    {
      assert cfg.cases[k + 1] == k + 1 && cfg.cases[k] == k;
      assert (k + 1) as real * cfg.width == k as real * cfg.width + cfg.width;
    }
    assert cfg.cases[n - 1] == n - 1;
    assert (n - 1) as real * cfg.width + cfg.width == n as real * cfg.width;
  }

  /** In stack mode the single page sits between the header and the footer and the content ends with them. */
  lemma StackPanelsTileContent(cfg: Config, i: int)
    requires !cfg.SlideModeOn()
    ensures PageX(cfg, i) == HeaderX(cfg) + (if cfg.hasHeader then cfg.width else 0.0)
    ensures PageX(cfg, i) + cfg.width == FooterX(cfg)
    ensures FooterX(cfg) + (if cfg.hasFooter then cfg.width else 0.0) == ContentWidth(cfg)
  {
  }

  /** In slide mode the frames of two different pages never overlap. */
  lemma {:induction false} SlidePagesDisjoint(cfg: Config, i: int, j: int)
    requires cfg.SlideModeOn() && i < j
    ensures PageX(cfg, i) + cfg.width <= PageX(cfg, j)
  {
    var d := j - i;
    assert j as real * cfg.width == i as real * cfg.width + d as real * cfg.width;
    assert d as real * cfg.width >= cfg.width by {
      assert d as real >= 1.0;
      assert (d as real - 1.0) * cfg.width >= 0.0;
    }
  }
}

=== FILE: outputs.dfy ===
/**
 * What the container does to the outside world: the delegate callbacks it
 * makes and the viewport moves it asks the scroll view for, in order.
 */
module Outputs {
  import opened Layout

  datatype Output =
    | ContentRequested(index: int)              // the delegate's `contentAtIndex` factory is consulted
    | Configure(index: int, deferred: bool)     // `contentConfiguraionWithContent`; deferred when it runs from an animation completion or a timer
    | ScrollTo(x: real)                         // `scrollRectToVisible` for a page-wide frame at x
    | SlideProgress(factor: real, tendTo: int, translation: real)
    | SlideDidChange(oldIndex: int, newIndex: int)
    | VisualProgress(factor: real, kind: Kind, translation: real)
    | VisualDidChange(kind: Kind)
    | VisualResetChange(isDidChange: bool, kind: Kind)

  /** The two callbacks that announce a committed transition. */
  predicate IsCommit(o: Output) {
    o.SlideDidChange? || o.VisualDidChange?
  }

  /** `[o]` when `o` announces a commit, otherwise nothing. */
  function CommitOf(o: Output): seq<Output> {
    if IsCommit(o) then [o] else []
  }

  /** The commit announcements among `outs`, in order. */
  function Commits(outs: seq<Output>): seq<Output>
  {
    if outs == [] then [] else CommitOf(outs[0]) + Commits(outs[1..])
  }

  /** `[o.index]` when `o` is a factory consultation, otherwise nothing. */
  function RequestOf(o: Output): seq<int> {
    if o.ContentRequested? then [o.index] else []
  }

  /** The indices for which the content factory was consulted, in order. */
  function Requests(outs: seq<Output>): seq<int>
  {
    if outs == [] then [] else RequestOf(outs[0]) + Requests(outs[1..])
  }

  /** The filters keep exactly the announcements, and exactly the factory consultations. */
  lemma {:induction false} FiltersKeepMembers(outs: seq<Output>)
    ensures forall o :: o in Commits(outs) <==> o in outs && IsCommit(o)
    ensures forall i :: i in Requests(outs) <==> ContentRequested(i) in outs
    decreases |outs|
  {
    if outs != [] {
      FiltersKeepMembers(outs[1..]);
      assert outs == [outs[0]] + outs[1..];
    }
  }

  lemma {:induction false} CommitsAppend(a: seq<Output>, b: seq<Output>)
    ensures Commits(a + b) == Commits(a) + Commits(b)
    decreases |a|
  {
    if a == [] {
      assert a + b == b;
    } else {
      var h, t := a[0], a[1..];
      assert (a + b)[0] == h && (a + b)[1..] == t + b;
      CommitsAppend(t, b);
      calc {
        Commits(a + b);
        CommitOf(h) + Commits(t + b);
        CommitOf(h) + (Commits(t) + Commits(b));
        (CommitOf(h) + Commits(t)) + Commits(b);
        Commits(a) + Commits(b);
      }
    }
  }

  lemma {:induction false} RequestsAppend(a: seq<Output>, b: seq<Output>)
    ensures Requests(a + b) == Requests(a) + Requests(b)
    decreases |a|
  {
    if a == [] {
      assert a + b == b;
    } else {
      var h, t := a[0], a[1..];
      assert (a + b)[0] == h && (a + b)[1..] == t + b;
      RequestsAppend(t, b);
      calc {
        Requests(a + b);
        RequestOf(h) + Requests(t + b);
        RequestOf(h) + (Requests(t) + Requests(b));
        (RequestOf(h) + Requests(t)) + Requests(b);
        Requests(a) + Requests(b);
      }
    }
  }

  /** Both filters distribute over concatenation. */
  lemma FiltersAppend(a: seq<Output>, b: seq<Output>)
    ensures Commits(a + b) == Commits(a) + Commits(b)
    ensures Requests(a + b) == Requests(a) + Requests(b)
  {
    CommitsAppend(a, b);
    RequestsAppend(a, b);
  }

  /** Prefixing outputs that announce nothing and consult no factory changes neither filter. */
  lemma QuietThen(a: seq<Output>, b: seq<Output>)
    requires Commits(a) == [] && Requests(a) == []
    ensures Commits(a + b) == Commits(b) && Requests(a + b) == Requests(b)
  {
    FiltersAppend(a, b);
    assert [] + Commits(b) == Commits(b);
    assert [] + Requests(b) == Requests(b);
  }

  /** Appending outputs that announce nothing and consult no factory changes neither filter. */
  lemma ThenQuiet(a: seq<Output>, b: seq<Output>)
    requires Commits(b) == [] && Requests(b) == []
    ensures Commits(a + b) == Commits(a) && Requests(a + b) == Requests(a)
  {
    FiltersAppend(a, b);
    assert Commits(a) + [] == Commits(a);
    assert Requests(a) + [] == Requests(a);
  }

  /** Outputs that announce nothing leave the announcements of what follows them alone. */
  lemma SilentThen(a: seq<Output>, b: seq<Output>)
    requires Commits(a) == []
    ensures Commits(a + b) == Commits(b)
  {
    CommitsAppend(a, b);
    assert [] + Commits(b) == Commits(b);
  }

  /** Appending outputs that consult no factory leaves the consultations alone. */
  lemma ThenNoRequests(a: seq<Output>, b: seq<Output>)
    requires Requests(b) == []
    ensures Requests(a + b) == Requests(a)
  {
    RequestsAppend(a, b);
    assert Requests(a) + [] == Requests(a);
  }

  lemma FiltersSingle(o: Output)
    ensures Commits([o]) == if IsCommit(o) then [o] else []
    ensures Requests([o]) == if o.ContentRequested? then [o.index] else []
  {
    assert [o][1..] == [];
  }

  /** Outputs of three pieces, filtered piecewise. */
  lemma FiltersAppend3(a: seq<Output>, b: seq<Output>, c: seq<Output>)
    ensures Commits(a + b + c) == Commits(a) + Commits(b) + Commits(c)
    ensures Requests(a + b + c) == Requests(a) + Requests(b) + Requests(c)
  {
    FiltersAppend(a, b);
    FiltersAppend(a + b, c);
  }
}

=== FILE: progress.dfy ===
/**
 * `selectedProgress(factor:tendTo:)`: in slide mode, move the scroll view part
 * of the way from the selected page towards one of its neighbours, by
 * `factor` page widths. The result is the content offset the call sets, or
 * `None` when the call returns early.
 */
module Progress {
  import opened Wrappers
  import opened SlideIndex
  import opened Layout
  import opened Gesture
  import opened Container

  /**
   * The signed shift the source computes: a whole page width (the source's
   * `halfPage` is `current.frame.width`, its `* 0.5` commented out) times
   * `factor`, negative towards the previous case, positive towards the next
   * one, and zero for any other index.
   */
  function Shift(cfg: Config, current: int, factor: real, tendTo: int): (d: real)
    ensures tendTo == current - 1 && tendTo in cfg.cases ==> d == -(cfg.width * factor)
    ensures tendTo == current + 1 && tendTo in cfg.cases ==> d == cfg.width * factor
    ensures tendTo !in cfg.cases || (tendTo != current - 1 && tendTo != current + 1) ==> d == 0.0
  {
    var page: real := cfg.width;
    if Preview(cfg.cases, current) == Some(tendTo) then -page * factor
    else if Next(cfg.cases, current) == Some(tendTo) then page * factor
    else 0.0
  }

  /**
   * The source as written: it hands the shift to `setContentOffset` as the
   * absolute offset, so the result ignores where the selected page is.
   */
  function SelectedProgressAsWritten(cfg: Config, st: State, factor: real, tendTo: int): (r: Option<real>)
    ensures r.Some? <==> cfg.SlideModeOn() && st.selectedContent.Some?
    ensures r.Some? ==> Abs(r.value) <= cfg.width * Abs(factor)
  {
    if !cfg.SlideModeOn() || st.selectedContent.None? then None
    else Some(Shift(cfg, st.selectedContent.value.index, factor, tendTo))
  }

  /**
   * With pages [0, 1, 2] 300 points wide and no header, page 2 selected at
   * 600: a full step back towards page 1 sets the offset to -300, before the
   * content's start, while page 1 lies at 300.
   */
  lemma AsWrittenMissesTarget()
    ensures var cfg := Config(true, true, [0, 1, 2], 300.0, false, false);
            var page := IndexContent(2, 0, 600.0);
            var st := State(map[2 := page], Some(page), Drag(0.0, false, false, {}));
            && Valid(cfg, st)
            && Preview(cfg.cases, 2) == Some(1)
            && SelectedProgressAsWritten(cfg, st, 1.0, 1) == Some(-300.0)
            && PageX(cfg, 1) == 300.0
  {
    assert 1 in [0, 1, 2];
  }

  /** The corrected call: the shift is taken from the selected page's origin. */
  function SelectedProgress(cfg: Config, st: State, factor: real, tendTo: int): (r: Option<real>)
    ensures r.Some? <==> cfg.SlideModeOn() && st.selectedContent.Some?
    ensures r.Some? ==> r.value - st.selectedContent.value.x == SelectedProgressAsWritten(cfg, st, factor, tendTo).value
  {
    if !cfg.SlideModeOn() || st.selectedContent.None? then None
    else Some(st.selectedContent.value.x + Shift(cfg, st.selectedContent.value.index, factor, tendTo))
  }

  /**
   * For a neighbour of the selected page and a factor in [0, 1], the
   * corrected offset lies between the selected page's origin and the
   * neighbour's, at the one for factor 0 and at the other for factor 1.
   */
  lemma SelectedProgressBetweenPages(cfg: Config, st: State, factor: real, tendTo: int)
    requires Valid(cfg, st) && cfg.SlideModeOn() && st.selectedContent.Some?
    requires tendTo == st.selectedContent.value.index - 1 || tendTo == st.selectedContent.value.index + 1
    requires tendTo in cfg.cases
    requires 0.0 <= factor <= 1.0
    ensures var x := SelectedProgress(cfg, st, factor, tendTo).value;
            var from := st.selectedContent.value.x;
            var to := PageX(cfg, tendTo);
            && (from <= to ==> from <= x <= to)
            && (to <= from ==> to <= x <= from)
            && (factor == 0.0 ==> x == from)
            && (factor == 1.0 ==> x == to)
  {
    var i := st.selectedContent.value.index;
    var w: real := cfg.width;
    var from := st.selectedContent.value.x;
    var x := SelectedProgress(cfg, st, factor, tendTo).value;
    var to := PageX(cfg, tendTo);
    assert from == SlidePageX(cfg, i);
    if tendTo == i - 1 {
      assert Preview(cfg.cases, i) == Some(tendTo);
      assert x == from - w * factor;
      assert to == from - w;
      FractionOfStep(from, w, factor, x, to);
    } else {
      assert Next(cfg.cases, i) == Some(tendTo);
      assert x == from + w * factor;
      assert to == from + w;
      FractionOfStep(from, w, factor, x, to);
    }
  }

  /**
   * A fraction in [0, 1] of a step of width `w` from `from` towards `to`,
   * either way, stays within the step and hits its ends at 0 and 1.
   */
  lemma FractionOfStep(from: real, w: real, factor: real, x: real, to: real)
    requires 0.0 <= w && 0.0 <= factor <= 1.0
    requires (x == from - w * factor && to == from - w) || (x == from + w * factor && to == from + w)
    ensures from <= to ==> from <= x <= to
    ensures to <= from ==> to <= x <= from
    ensures factor == 0.0 ==> x == from
    ensures factor == 1.0 ==> x == to
  {
    assert 0.0 <= w * factor <= w by {
      assert w * (1.0 - factor) >= 0.0;
    }
  }
}

=== FILE: scenario.dfy ===
/**
 * A worked swipe: three 300-point pages without overlays in slide mode,
 * page 0 selected and its content already built, the finger dragging the
 * content offset 200 points larger (towards page 1) and lifting there.
 */
module Scenario {
  import opened Wrappers
  import opened SlideIndex
  import opened Layout
  import opened Gesture
  import opened Outputs
  import opened Container
  import opened Controller

  function ThreePages(): Config {
    Config(true, true, [0, 1, 2], 300.0, false, false)
  }

  /** Every content the factory builds in this scenario is content 7. */
  function Make(): int -> Handle {
    (i: int) => 7
  }

  /** Page 0 was built before the swipe, by its own controller (handle 6). */
  function Page0(): IndexContent {
    IndexContent(0, 6, 0.0)
  }

  function Page1(): IndexContent {
    IndexContent(1, 7, 300.0)
  }

  /** Page 0 selected, no gesture in progress. */
  function Rest0(): State {
    State(map[0 := Page0()], Some(Page0()), Drag(0.0, false, false, {}))
  }

  /** Page 0 selected, right after the "began" event at offset 0. */
  function Armed0(): State {
    State(map[0 := Page0()], Some(Page0()), Drag(0.0, true, false, {}))
  }

  /** Page 1 rendered next to page 0, the finger still down. */
  function Dragging(): State {
    State(map[0 := Page0(), 1 := Page1()], Some(Page0()), Drag(0.0, true, false, {}))
  }

  /** The same after the finger lifted. */
  function Lifted(): State {
    Dragging().(drag := Drag(0.0, true, true, {}))
  }

  /** Page 1 selected, the gesture spent. */
  function Moved(): State {
    State(map[0 := Page0(), 1 := Page1()], Some(Page1()), Drag(0.0, false, true, {}))
  }

  /** The drag heads for page 1 at full progress and is far enough to commit. */
  lemma DragTowardsPage1()
    ensures SlideTendency(ThreePages().cases, 0, 200.0) == Tendency(None, Some(1))
    ensures ProgressFactor(200.0, 300.0) == 1.0 && ShouldChange(200.0, 300.0)
    ensures SlidePageX(ThreePages(), 1) == 300.0
  {
    assert 1 in ThreePages().cases;
    assert Next(ThreePages().cases, 0) == Some(1);
  }

  /** Rendering page 1 for the first time asks the factory for it and configures it at once. */
  lemma PreviewNewPage1()
    ensures SlideSelectedContent(ThreePages(), Armed0(), 1, false, Make()) ==
              Transition(Dragging(), [ContentRequested(1), Configure(1, false)])
  {
    DragTowardsPage1();
    PreviewParts(ThreePages(), Armed0(), 1, Make());
    assert RequestIfMissing(Armed0(), 1) == [ContentRequested(1)];
    assert Armed0().contents[1 := Page1()] == Dragging().contents;
  }

  /** The neighbour branch while the finger is down: full progress towards page 1, and page 1 rendered. */
  lemma DragRendersPage1()
    ensures NeighbourTick(ThreePages(), Armed0(), 1, 200.0, 40.0, Make()) == Transition(Dragging(), Rendered())
  {
    DragTowardsPage1();
    PreviewNewPage1();
    NeighbourTickParts(ThreePages(), Armed0(), 1, 200.0, 40.0, Make());
    assert ThreePages().width == 300.0 && !Armed0().drag.isDragEnded;
    RenderedParts();
  }

  lemma RenderedParts()
    ensures [SlideProgress(1.0, 1, 40.0)] + [ContentRequested(1), Configure(1, false)] == Rendered()
  {
  }

  /** While the finger is down, page 1 is built and configured at once, but not selected. */
  lemma TickWhileDragging()
    ensures Step(ThreePages(), Armed0(), Tick(), Make()) == Transition(Dragging(), Rendered())
  {
    DragTowardsPage1();
    DragRendersPage1();
    StepTickIsSlideTick(ThreePages(), Armed0(), 200.0, 40.0, Make());
    SlideTickIsNeighbourTick(ThreePages(), Armed0(), 200.0, 40.0, Make());
  }

  /** The "began" event at offset 0 arms the gesture and reports nothing. */
  lemma BeganArms()
    ensures Step(ThreePages(), Rest0(), Pan(Began, 0.0), Make()) == Transition(Armed0(), [])
  {
  }

  /** Lifting the finger only marks the drag as ended. */
  lemma LiftFinger()
    ensures Step(ThreePages(), Dragging(), Pan(Ended, 200.0), Make()) == Transition(Lifted(), [])
  {
  }

  /** Rendering the cached page 1 next to the lifted drag only configures it. */
  lemma PreviewCachedPage1()
    ensures SlideSelectedContent(ThreePages(), Lifted(), 1, false, Make()) == Transition(Lifted(), [Configure(1, false)])
  {
    DragTowardsPage1();
    PreviewParts(ThreePages(), Lifted(), 1, Make());
    assert RequestIfMissing(Lifted(), 1) == [];
    assert Lifted().contents[1 := Page1()] == Lifted().contents;
  }

  /** Committing to page 1 selects its entry, scrolls to it and announces the move. */
  lemma CommitMovesToPage1()
    ensures NeighbourCommit(Lifted(), 0, 1) == Transition(Moved(), [ScrollTo(300.0), SlideDidChange(0, 1)])
  {
  }

  /** The commit branch on the lifted drag, with page 1 already cached. */
  lemma CommitToPage1()
    ensures NeighbourTick(ThreePages(), Lifted(), 1, 200.0, 40.0, Make()) == Transition(Moved(), Committed())
  {
    DragTowardsPage1();
    PreviewCachedPage1();
    CommitMovesToPage1();
    NeighbourTickParts(ThreePages(), Lifted(), 1, 200.0, 40.0, Make());
    assert ThreePages().width == 300.0 && Lifted().drag.isDragEnded;
    CommittedParts();
  }

  lemma CommittedParts()
    ensures [SlideProgress(1.0, 1, 40.0)] + [Configure(1, false)] + [ScrollTo(300.0), SlideDidChange(0, 1)] == Committed()
  {
  }

  /**
   * The first tick after the lift commits: page 1 (already cached, so no
   * factory call) becomes the selection, the viewport scrolls to it and the
   * move is announced.
   */
  lemma TickAfterLift()
    ensures Step(ThreePages(), Lifted(), Tick(), Make()) == Transition(Moved(), Committed())
  {
    DragTowardsPage1();
    CommitToPage1();
    StepTickIsSlideTick(ThreePages(), Lifted(), 200.0, 40.0, Make());
    SlideTickIsNeighbourTick(ThreePages(), Lifted(), 200.0, 40.0, Make());
  }

  /** Once committed, further ticks of the same gesture do nothing. */
  lemma TickAfterCommit()
    ensures Step(ThreePages(), Moved(), Tick(), Make()) == Transition(Moved(), [])
  {
  }

  function Tick(): Event {
    Scrolled(200.0, 40.0)
  }

  /** The callbacks of the tick while dragging. */
  function Rendered(): seq<Output> {
    [SlideProgress(1.0, 1, 40.0), ContentRequested(1), Configure(1, false)]
  }

  /** The callbacks of the committing tick. */
  function Committed(): seq<Output> {
    [SlideProgress(1.0, 1, 40.0), Configure(1, false), ScrollTo(300.0), SlideDidChange(0, 1)]
  }

  lemma RunAfterCommit()
    ensures Run(ThreePages(), Moved(), [Tick()], Make()) == Transition(Moved(), [])
  {
    TickAfterCommit();
    RunCons(ThreePages(), Moved(), Tick(), [], Make());
    assert [Tick()] + [] == [Tick()];
  }

  lemma RunAfterLift()
    ensures Run(ThreePages(), Lifted(), [Tick(), Tick()], Make()) == Transition(Moved(), Committed())
  {
    TickAfterLift();
    RunAfterCommit();
    RunCons(ThreePages(), Lifted(), Tick(), [Tick()], Make());
    assert [Tick()] + [Tick()] == [Tick(), Tick()];
    assert Committed() + [] == Committed();
  }

  lemma RunAfterDrag()
    ensures Run(ThreePages(), Dragging(), [Pan(Ended, 200.0), Tick(), Tick()], Make()) == Transition(Moved(), Committed())
  {
    LiftFinger();
    RunAfterLift();
    RunCons(ThreePages(), Dragging(), Pan(Ended, 200.0), [Tick(), Tick()], Make());
    assert [Pan(Ended, 200.0)] + [Tick(), Tick()] == [Pan(Ended, 200.0), Tick(), Tick()];
    assert [] + Committed() == Committed();
  }

  lemma RunAfterBegan()
    ensures Run(ThreePages(), Armed0(), [Tick(), Pan(Ended, 200.0), Tick(), Tick()], Make()) ==
              Transition(Moved(), Rendered() + Committed())
  {
    var rest := [Pan(Ended, 200.0), Tick(), Tick()];
    assert [Tick()] + rest == [Tick(), Pan(Ended, 200.0), Tick(), Tick()];
    TickWhileDragging();
    RunAfterDrag();
    RunCons(ThreePages(), Armed0(), Tick(), rest, Make());
  }

  /** The swipe's callbacks, event by event, from the "began" event on. */
  lemma SwipeOutputs()
    ensures Run(ThreePages(), Rest0(), Swipe(), Make()) == Transition(Moved(), Rendered() + Committed())
  {
    var rest := [Tick(), Pan(Ended, 200.0), Tick(), Tick()];
    assert [Pan(Began, 0.0)] + rest == Swipe();
    BeganArms();
    RunAfterBegan();
    RunCons(ThreePages(), Rest0(), Pan(Began, 0.0), rest, Make());
    assert [] + (Rendered() + Committed()) == Rendered() + Committed();
  }

  /** The finger goes down, drags 200 points towards page 1, lifts, and the scroll view ticks on. */
  function Swipe(): seq<Event> {
    [Pan(Began, 0.0), Tick(), Pan(Ended, 200.0), Tick(), Tick()]
  }

  /**
   * The whole swipe: one factory call for page 1, one announced move from
   * page 0 to page 1, and page 1 selected at its origin.
   */
  lemma SwipeToNextPage()
    ensures var t := Run(ThreePages(), Rest0(), Swipe(), Make());
            && Requests(t.outputs) == [1]
            && Commits(t.outputs) == [SlideDidChange(0, 1)]
            && t.state.selectedContent == Some(IndexContent(1, 7, 300.0))
  {
    SwipeOutputs();
    RenderedFilters();
    CommittedFilters();
    FiltersAppend(Rendered(), Committed());
    assert [1] + [] == [1];
    assert [] + [SlideDidChange(0, 1)] == [SlideDidChange(0, 1)];
  }

  lemma RenderedFilters()
    ensures Requests(Rendered()) == [1] && Commits(Rendered()) == []
  {
    assert Rendered() == [SlideProgress(1.0, 1, 40.0)] + [ContentRequested(1)] + [Configure(1, false)];
    FiltersAppend3([SlideProgress(1.0, 1, 40.0)], [ContentRequested(1)], [Configure(1, false)]);
    FiltersSingle(SlideProgress(1.0, 1, 40.0));
    FiltersSingle(ContentRequested(1));
    FiltersSingle(Configure(1, false));
  }

  lemma CommittedFilters()
    ensures Requests(Committed()) == [] && Commits(Committed()) == [SlideDidChange(0, 1)]
  {
    var quiet := [SlideProgress(1.0, 1, 40.0), Configure(1, false), ScrollTo(300.0)];
    assert quiet == [SlideProgress(1.0, 1, 40.0)] + [Configure(1, false)] + [ScrollTo(300.0)];
    assert Committed() == quiet + [SlideDidChange(0, 1)];
    FiltersAppend3([SlideProgress(1.0, 1, 40.0)], [Configure(1, false)], [ScrollTo(300.0)]);
    FiltersSingle(SlideProgress(1.0, 1, 40.0));
    FiltersSingle(Configure(1, false));
    FiltersSingle(ScrollTo(300.0));
    FiltersSingle(SlideDidChange(0, 1));
    QuietThen(quiet, [SlideDidChange(0, 1)]);
  }
}

=== FILE: slide_index.dfy ===
/**
 * Index types that support sliding (`ContainerSlideDiretionIndex`), in the
 * Int-backed form the container relies on: an enum whose cases carry distinct
 * `Int` raw values. Such a type is described by the raw values of `allCases`
 * in declaration order, and a case is identified with its raw value.
 */
module SlideIndex {
  import opened Wrappers

  /** The raw values of `allCases`, in declaration order. */
  type Cases = seq<int>

  /** Swift rejects an enum whose cases share a raw value. */
  predicate Distinct(cases: Cases) {
    forall k, l :: 0 <= k < l < |cases| ==> cases[k] != cases[l]
  }

  /** The common shape `enum Index: Int { case a, b, c }`: raw values 0, 1, ..., n-1 in order. */
  predicate Contiguous(cases: Cases) {
    forall k :: 0 <= k < |cases| ==> cases[k] == k
  }

  /** `init?(rawValue:)`: the case carrying `raw`, if the enum declares one. */
  function FromRaw(cases: Cases, raw: int): (r: Option<int>)
    ensures r.Some? ==> r.value == raw && exists k :: 0 <= k < |cases| && cases[k] == raw
    ensures r.None? ==> forall k :: 0 <= k < |cases| ==> cases[k] != raw
  {
    if raw in cases then Some(raw) else None
  }

  /** `indexPath`: the raw value itself, used as the page ordinal. */
  function IndexPath(i: int): int {
    i
  }

  /** `preview`: the case whose raw value is one less, if any. */
  function Preview(cases: Cases, i: int): (r: Option<int>)
    ensures r.Some? ==> r.value in cases && r.value + 1 == IndexPath(i)
    ensures r.None? ==> forall k :: 0 <= k < |cases| ==> cases[k] + 1 != IndexPath(i)
  {
    FromRaw(cases, IndexPath(i) - 1)
  }

  /** `next`: the case whose raw value is one more, if any. */
  function Next(cases: Cases, i: int): (r: Option<int>)
    ensures r.Some? ==> r.value in cases && r.value == IndexPath(i) + 1
    ensures r.None? ==> forall k :: 0 <= k < |cases| ==> cases[k] != IndexPath(i) + 1
  {
    FromRaw(cases, IndexPath(i) + 1)
  }

  /** `allCases.first`. */
  function First(cases: Cases): Option<int> {
    if |cases| == 0 then None else Some(cases[0])
  }

  /** `Array(allCases).last`. */
  function Last(cases: Cases): Option<int> {
    if |cases| == 0 then None else Some(cases[|cases| - 1])
  }

  /** `isEqualToFirst()`: `self == first`, false when there are no cases. */
  predicate IsEqualToFirst(cases: Cases, i: int) {
    First(cases) == Some(i)
  }

  /** `isEqualToLast()`: `self == last`, false when there are no cases. */
  predicate IsEqualToLast(cases: Cases, i: int) {
    Last(cases) == Some(i)
  }

  /** The first/last checks pick out exactly the cases at the two ends of `allCases`. */
  lemma {:induction false} FirstLastPositions(cases: Cases, k: int)
    requires Distinct(cases)
    requires 0 <= k < |cases|
    ensures IsEqualToFirst(cases, cases[k]) <==> k == 0
    ensures IsEqualToLast(cases, cases[k]) <==> k == |cases| - 1
  {
    if k != 0 {
      assert cases[0] != cases[k];
    }
    if k != |cases| - 1 {
      assert cases[k] != cases[|cases| - 1];
    }
  }

  /** Stepping back and then forward (or forward and then back) returns to the same case. */
  lemma {:induction false} PreviewNextRoundTrip(cases: Cases, i: int)
    requires i in cases
    ensures Preview(cases, i).Some? ==> Next(cases, Preview(cases, i).value) == Some(i)
    ensures Next(cases, i).Some? ==> Preview(cases, Next(cases, i).value) == Some(i)
  {
    var p := Preview(cases, i);
    if p.Some? {
      assert IndexPath(p.value) + 1 == i;
    }
    var n := Next(cases, i);
    if n.Some? {
      assert IndexPath(n.value) - 1 == i;
    }
  }

  /**
   * With contiguous raw values the neighbour lookup and the end checks agree:
   * there is no previous case exactly at the first case and no next case
   * exactly at the last one.
   */
  lemma {:induction false} ContiguousNeighbours(cases: Cases, i: int)
    requires Contiguous(cases)
    requires i in cases
    ensures Preview(cases, i).None? <==> IsEqualToFirst(cases, i)
    ensures Next(cases, i).None? <==> IsEqualToLast(cases, i)
    ensures 0 <= i < |cases|
  {
    var k :| 0 <= k < |cases| && cases[k] == i;
    assert i == k;
    if k > 0 {
      assert cases[k - 1] == i - 1;
    }
    if k < |cases| - 1 {
      assert cases[k + 1] == i + 1;
    }
    if Preview(cases, i).Some? {
      var j :| 0 <= j < |cases| && cases[j] == i - 1;
      assert j == i - 1;
    }
    if Next(cases, i).Some? {
      var j :| 0 <= j < |cases| && cases[j] == i + 1;
      assert j == i + 1;
    }
  }

  /**
   * Without contiguous raw values the two notions part: in `enum { case a = 0, b = 2 }`
   * the case `b` is not the first case, yet it has no previous case.
   */
  lemma GapHidesPreview()
    ensures !IsEqualToFirst([0, 2], 2) && Preview([0, 2], 2).None?
  {
    assert 1 !in [0, 2];
  }
}

=== FILE: wrappers.dfy ===
/** Swift's optional values, as an algebraic datatype. */
module Wrappers {

  datatype Option<+T> = None | Some(value: T)

  /** Dictionary subscript: `m[k]` in Swift, nil when the key is absent. */
  function Lookup<K, V>(m: map<K, V>, k: K): (r: Option<V>)
    ensures r.Some? <==> k in m
    ensures r.Some? ==> r.value == m[k]
  {
    if k in m then Some(m[k]) else None
  }
}
